=== FILE: README.md ===
# api_ans ETL core in Dafny

This project models the extract-transform-load core of `api_ans`. That
program fetches the quarterly accounting statements that the Brazilian
health-insurance regulator (ANS) publishes. It joins them with the
registry of health-plan operators (CADOP) and writes a report of the
expenses aggregated per operator, state and quarter, with amounts in the
Brazilian currency format.

There are four stages, one module each, on shared foundations:

- `Scraper` (`scraper.dfy`) models quarter selection:
  - `find_dir`, `list_years` and `list_zip_files`;
  - `find_last_three_quarters`, with its newest-first ordering of years and
    of archives, its stable sort on the leading quarter digit, and its stop
    at three URLs.
  - A site is a value: a map from URL to the `href`s of that page's anchors.
  - `urljoin` is a function parameter.
- `Utils` (`utils.dfy`) models `extract_quarter` and `format_brl`:
  - `format_brl` works over signed integer cents;
  - Python's `,` thousands grouping and `.2f` are written out;
  - the three chained `replace` calls follow them.
- `Quarterly` models `read_and_clean_quarter_csv` and `consolidate_quarters`:
  - label normalisation and the required-column check;
  - the locale rewrite of the value column and the parse, with unparseable
    rows dropped;
  - tagging each row with the year and quarter read off the file name stem;
  - per-file error isolation, and the final error when no file succeeded.
- `Registry` models `read_cadop`. It follows the same discipline over five
  columns, and every field is trimmed.
- `Enrichment` models `enrich_with_cadop` as a left join on `RegistroANS`.
- `Aggregation` models `aggregate_expenses`:
  - the required-column check;
  - `groupby` on the five-field key, which drops rows whose registry columns
    are missing;
  - sum and mean;
  - the descending sort on the total;
  - formatting both amounts with `format_brl`.
- Foundations:
  - `Results`: `Option` and `Result`;
  - `Text`: Python string primitives on Latin-1 text, `int()` and the decimal
    grammar of `to_numeric`;
  - `Seqs`: filtering, flattening, and a stable insertion sort with its
    sortedness, permutation and stability lemmas;
  - `Tables`: a CSV as read by pandas, with a header of labels and rows of
    cells, where a missing cell is `None`.

Each operation comes with a partner property:

- a round trip:
  - amounts written by `format_brl` are read back exactly by the quarterly
    value parser;
  - a registry written from trimmed records reads back to the same records;
- a reference definition: each aggregated row reads back as the sum and the
  mean over exactly the joined rows with its key, rounded to whole cents;
- an invariant the loop keeps (`ConsolidateQuarters`,
  `VisitYears`);
- or an ordering or stability law.

A missing id is not dropped: `astype(str)` turns it into the text `"nan"`
before `dropna` runs (`api_ans/transformer.py:69`, `84`). So only rows whose
value fails to parse are dropped, and the model does the same.

## Model

| member | source | states |
|---|---|---|
| Scraper.ExtractHrefs | api_ans/scraper.py:8-14 | exactly the non-empty `href`s of the page's anchors are kept, never more than there are anchors |
| Scraper.HrefCount | api_ans/scraper.py:8-14 | each non-empty `href` is kept as many times as the page's anchors carry it |
| Scraper.HrefsInPageOrder | api_ans/scraper.py:8-14 | the kept `href`s come from a subsequence of the anchors, so page order is kept |
| Scraper.FindDir | api_ans/scraper.py:17-26 | the result is the first `href` whose lower-cased text contains both "demonstr" and "contab", resolved against the base URL; it fails exactly when no link matches |
| Scraper.ListYears | api_ans/scraper.py:29-37 | exactly the links ending in '/' whose prefix is non-empty and all digits (as `isdigit` sees Latin-1), in page order, each as many times as the page links it |
| Scraper.ListZipFiles | api_ans/scraper.py:40-47 | exactly the links ending in ".zip", in page order, each as many times as the page links it |
| Scraper.SortYears | api_ans/scraper.py:51 | the sorted years are a permutation of the listed ones |
| Scraper.SortYearsNewestFirst | api_ans/scraper.py:51 | years are visited in descending string order |
| Scraper.YearDirOrder | api_ans/scraper.py:51 | for year directories with the same number of ASCII digits, descending string order is descending numeric order |
| Scraper.QuarterKeys | api_ans/scraper.py:59 | the sort key of every archive is its leading digit; one name without one makes the sort fail, naming the first such name |
| Scraper.SortByQuarter | api_ans/scraper.py:59 | the sort fails exactly when some name has no leading digit; otherwise the archives are a permutation of the listed ones in non-increasing quarter order, and those with the same quarter keep their page order (the sort is stable under `reverse=True`) |
| Scraper.VisitYear | api_ans/scraper.py:56-59 | the year URL is the year resolved against the statements URL; the step fails exactly when that page cannot be fetched or one of its archive names has no leading digit, and otherwise the archives are the year's zip listing, stably reordered newest quarter first |
| Scraper.SelectFrom | api_ans/scraper.py:61-64 | the inner loop appends the year's resolved URLs in order and stops as soon as three are selected, reporting whether it stopped |
| Scraper.Gather | api_ans/scraper.py:55-66 | the selection extends what was already chosen and never holds more than three URLs |
| Scraper.LastThreeQuarters | api_ans/scraper.py:50-66 | a statements page that cannot be fetched is an error; otherwise at most three URLs are selected |
| Scraper.FindLastThreeQuarters | api_ans/scraper.py:50-66 | the two nested loops with the early return compute the selection: years newest first, archives newest quarter first, at most three |
| Scraper.VisitYears | api_ans/scraper.py:55-66 | the loop over the sorted years returns the first failure or the URLs gathered in order, stopping at three |
| Scraper.GatherTakesFirst | api_ans/scraper.py:55-66 | when every visited year can be read, the result is the first three URLs of all years taken together, or all of them when there are fewer, and no error is raised |
| Scraper.GatherIgnoresLater | api_ans/scraper.py:61-64 | once the years visited so far supply three URLs, later years are never consulted: whatever they hold, even a fetch failure, the result is the same |
| Scraper.GatherErrorFromYear | api_ans/scraper.py:55-59 | a failure is reported only when visiting some year failed with it |
| Utils.ExtractQuarter | api_ans/utils.py:6-8 | the quarter is the value of the leading digit, any of 0-9; an empty name or a non-digit first character fails |
| Utils.TwoDigits | api_ans/utils.py:39 | the fraction is always written with exactly two digits that spell the cents |
| Utils.GroupThousandsChars | api_ans/utils.py:39 | digit grouping writes only digits and separators |
| Utils.GroupThousandsGrouped | api_ans/utils.py:39 | the separators fall between groups of three digits counted from the right, with one to three digits in front |
| Utils.GroupThousandsUngroup | api_ans/utils.py:39 | removing the separators from the grouped digits gives back the digits |
| Utils.PlaceholderSwapExchanges | api_ans/utils.py:40-42 | on text without 'X', the three chained replacements exchange ',' and '.' simultaneously |
| Utils.PlaceholderCollides | api_ans/utils.py:40-42 | the swap needs that condition: on "X" the chain and the exchange differ |
| Utils.SwapInvolutive | api_ans/utils.py:40-42 | exchanging the separators twice restores the text |
| Utils.SwapGrouping | api_ans/utils.py:39-42 | exchanging the separators turns ',' grouping into '.' grouping |
| Utils.FormatBrlIsBrlText | api_ans/utils.py:38-43 | the f-string followed by the three replacements writes "R$ ", the sign, the integer part grouped with '.', ',' and two cent digits |
| Utils.FormatBrlCases | api_ans/utils.py:30-43 | a missing value gives "R$ 0,00" and any other value the Brazilian convention written out directly |
| Utils.FormatBrlShape | api_ans/utils.py:30-43 | every output starts with "R$ " and ends with ',' and two digits, with at least one digit before the ',' |
| Utils.FormatBrlKeepsDigits | api_ans/utils.py:38-43 | deleting "R$ ", '-', '.' and ',' leaves at least three decimal digits that spell the absolute cents value, so no digit is lost or added |
| Utils.FormatBrlZero | api_ans/utils.py:35-36 | a missing value is written "R$ 0,00" |
| Utils.FormatBrlNegative | api_ans/utils.py:38-43 | -1.50 is written "R$ -1,50", the sign right after "R$ " |
| Utils.FormatBrlGrouped | api_ans/utils.py:30-43 | 12345.67 is written "R$ 12.345,67" |
| Tables.NormalizeLabel | api_ans/transformer.py:48-52 | a normalised label is the stripped label lower-cased character by character, so it has no surrounding whitespace and is no longer than the raw one |
| Tables.NormalizeHeader | api_ans/transformer.py:48-52 | every label is trimmed and lower-cased, position by position |
| Tables.SelectColumns | api_ans/transformer.py:60-66 | the check fails exactly when a required name is absent, with the error naming exactly the absent names; otherwise each name is read from the first label equal to it |
| Tables.FirstColumn | api_ans/transformer.py:66 | a column is read at the first label equal to its name |
| Text.ParsePyInt | api_ans/transformer.py:110-111 | `int()` gives the value of a plain digit string and fails on blank text |
| Text.ParseDecimal | api_ans/transformer.py:78-81 | a parsed value comes from digits, points and a leading sign with at least one digit; plain digit strings parse to their value |
| Quarterly.LocaleToPoint | api_ans/transformer.py:71-76 | after the rewrite no ',' is left and the text is no longer; there are as many '.' as the input had ',', every other character keeps its count, and turning the points back into commas gives the input with its points removed |
| Quarterly.ParseValue | api_ans/transformer.py:71-81 | a plain digit string parses to its value |
| Quarterly.ParseValueExample | api_ans/transformer.py:71-81 | "1.500,00" parses to 1500 |
| Quarterly.ParseValueNeedsDigit | api_ans/transformer.py:78-81 | text without a digit never parses, so the row is dropped |
| Quarterly.BrlValueRoundTrip | api_ans/transformer.py:71-81 | any amount written by `format_brl` (after "R$ ") is read back by the value parser as exactly that amount |
| Quarterly.ReadAndCleanQuarter | api_ans/transformer.py:26-90 | the file fails exactly when a required normalised label is missing, naming exactly the missing ones; otherwise at most one row per input row, each tagged with the year and quarter and with a trimmed id |
| Quarterly.CleanLabelled | api_ans/transformer.py:55-88 | the same, once the labels are normalised |
| Quarterly.ReadAndCleanRowsAppend | api_ans/transformer.py:84 | rows are cleaned independently: splitting the input splits the output, so input order is kept |
| Quarterly.ReadAndCleanSingleRow | api_ans/transformer.py:66-88 | a single row yields nothing when its value does not parse, otherwise exactly the record of its trimmed id, parsed value and period |
| Quarterly.NormalizedLabelExample | api_ans/transformer.py:48-52 | " REG_ANS " normalises to "reg_ans", satisfying the requirement |
| Quarterly.PySlice | api_ans/transformer.py:111 | Python slicing clips out-of-range bounds to the length instead of failing: the result is the part of the text between the clipped bounds |
| Quarterly.StemPeriod | api_ans/transformer.py:107-111 | a period is found exactly when the stem starts with a digit and `int(stem[2:6])` succeeds; the quarter is that digit and the year that integer; a stem of two characters or fewer fails |
| Quarterly.StemPeriodExample | api_ans/transformer.py:107-111 | "3T2025" gives year 2025, quarter 3 |
| Quarterly.ProcessFile | api_ans/transformer.py:106-121 | a bad stem or an unreadable file fails; a readable file with a good stem succeeds exactly when both required labels are present, and otherwise fails naming exactly the missing ones; every row of a good file carries the stem's period |
| Quarterly.Successes | api_ans/transformer.py:103-122 | the frames are the rows of the files that succeeded, in order; there is none exactly when every file failed |
| Quarterly.SuccessesStep | api_ans/transformer.py:119-122 | a file that succeeds appends its rows as one more frame; a file that fails leaves the frames unchanged |
| Quarterly.SuccessesAppend | api_ans/transformer.py:105-122 | files are processed independently: splitting the list splits the successes |
| Quarterly.ConsolidateQuarters | api_ans/transformer.py:97-129 | the result is an error exactly when every file failed; otherwise it is the concatenation of the successful results in input order |
| Quarterly.FailedFileSkipped | api_ans/transformer.py:121-122 | a failing file is skipped without affecting the others |
| Quarterly.EmptyFileCounts | api_ans/transformer.py:119-127 | a file that yields no rows is still a frame, so the result is not the "no valid quarter" error, and it adds no row to the concatenation |
| Registry.RegistryRow | api_ans/transformer.py:173-177 | every field of a registry record is trimmed |
| Registry.ReadCadop | api_ans/transformer.py:136-179 | the file fails exactly when a required normalised label is missing, naming exactly the missing ones; otherwise record i is read from row i, each field the trimmed text of the first column renamed to it, so no row is dropped |
| Registry.ReadLabelled | api_ans/transformer.py:156-177 | the same, once the labels are normalised |
| Registry.ReadCadopRoundTrip | api_ans/transformer.py:149-177 | a registry written from records with trimmed fields, under the five normalised labels, reads back to the same records |
| Registry.MissingUfExample | api_ans/transformer.py:164-168 | a file without the "uf" column fails naming only that column |
| Enrichment.Matches | api_ans/transformer.py:194-206 | the registry data joined to an id are exactly those of the operators carrying that id; none exactly when no operator does |
| Enrichment.EnrichRows | api_ans/transformer.py:194-206 | every joined row comes from an expense and agrees with the registry (filled with a matching operator, or empty only when none matches), and every matching pair appears |
| Enrichment.EnrichKeepsExpenses | api_ans/transformer.py:194-206 | the left join loses no expense |
| Enrichment.EnrichAppend | api_ans/transformer.py:194-206 | splitting the expenses splits the join, so expense order is kept |
| Enrichment.MatchesUnique | api_ans/transformer.py:194-206 | with unique registry ids an id matches at most one operator |
| Enrichment.EnrichRowUnique | api_ans/transformer.py:194-206 | with unique registry ids each expense yields exactly one row, filled exactly when an operator carries its id |
| Enrichment.EnrichOneToOne | api_ans/transformer.py:194-206 | with unique registry ids the output has the expenses' length and order, row i keeps expense i unchanged, and its registry fields are present exactly when an operator carries the id, with that operator's data |
| Aggregation.KeyOf | api_ans/transformer.py:299-302 | a row has a group key exactly when the join filled its registry columns |
| Aggregation.AddRow | api_ans/transformer.py:299-306 | adding a row updates only its own key's group, adding its value and one to the count, and keys stay distinct |
| Aggregation.GroupAll | api_ans/transformer.py:297-306 | the groups have distinct keys; under every key there is a group exactly when some matched row has that key, carrying the sum and number of those rows |
| Aggregation.UnmatchedRowIgnored | api_ans/transformer.py:299-302 | a row the join left unmatched contributes to no group |
| Aggregation.AllUnmatchedNoGroups | api_ans/transformer.py:299-302 | with no matched row there is no group |
| Aggregation.AggregateGroups | api_ans/transformer.py:284-308 | the check fails exactly when a required column is missing, naming exactly those; otherwise the groups are permuted into non-increasing total order, each one the expected sum and count for its key |
| Aggregation.RoundCents | api_ans/utils.py:39 | an amount is rounded to the nearest whole cent, halves to even |
| Aggregation.RoundCentsExact | api_ans/utils.py:39 | an amount already in whole cents is not changed by the rounding |
| Aggregation.RoundCentsMonotone | api_ans/utils.py:39 | rounding never reverses the order of two amounts |
| Aggregation.Mean | api_ans/transformer.py:305 | the mean times the group size is the total |
| Aggregation.FormatGroup | api_ans/transformer.py:311-312 | an output row keeps its group's key and writes the total and the mean, rounded to cents, in the Brazilian format |
| Aggregation.AggregateExpenses | api_ans/transformer.py:278-314 | fails exactly when a required column is missing, naming exactly those; otherwise one row per group: every operator and period with matched rows has exactly one row and no other key has one, each row's total and mean are written in the Brazilian format by `format_brl` from the rounded sum and the rounded sum over count, the total reads back as the sum of its matched rows rounded to cents and its mean as sum over count rounded to cents, and down the table the sums never increase, exactly or once rounded |
| Aggregation.PipelineAggregates | api_ans/transformer.py:284-295 | the joined frame always carries the required columns, so in the pipeline the aggregation never fails |
| Aggregation.NoMatchNoRows | api_ans/transformer.py:299-302 | when no expense id is in the registry, the aggregated table is empty |

## Left out

- HTTP fetching, HTML parsing and `urljoin` are parameters. The site is a map from URL to the anchors' `href`s, and a fetch fails exactly when the URL is not in it. `api_ans/http_client.py` is not part of this model.
- CSV and zip I/O is not modelled: `read_csv`, `to_csv`, `zip_output` and `save_and_zip_aggregated`. A quarterly file's contents are given as an already parsed table, or as `None` when reading raises.
- `run_transformation` and every `print` are plumbing and are not modelled. The enriched frame's column set is a constant, which `PipelineAggregates` uses.
- Binary floating point is not modelled. Values, sums and means are exact reals. `{:,.2f}` is modelled as exact half-even rounding to cents, which is not float rounding.
- `format_brl` on a negative amount that rounds to zero would write "-0,00" in Python. The model writes "0,00".
- Quarterly.ParseValue: `to_numeric` is modelled by a plain decimal grammar: an optional sign, digits, and an optional point with digits. It does not model surrounding whitespace, exponents, "inf", "nan" or the other spellings pandas accepts.
- pandas dtype inference is not modelled. A numeric column that pandas reads as a number and `astype(str)` writes as "123.0" is modelled as the text as written.
- `read_csv` turns strings such as "NA" or an empty field into NaN. The model takes a missing cell as `None` and has no such recognition.
- Tables.SelectColumns: a required name that two different raw labels share after normalisation (say "REG_ANS" and "reg_ans") is read from the first such column. In the program `df[...]` then keeps both columns under the new name, and `.astype(str).str` fails on that two-column frame (`api_ans/transformer.py:66-76`, `170-177`). The quarterly file is then skipped by the `except` at line 121, and `read_cadop` raises. Raw labels that are identical are renamed apart by `read_csv` ("reg_ans", "reg_ans.1"), so the first one is used, as in the model.
- Text.Strip: `str.strip`, `str.lower` and `str.isdigit` are modelled on the Latin-1 range only. Labels and cells of the CSV files are read as Latin-1 and stay within it. The `href`s of the site's pages are not limited to Latin-1, yet `IsYearDir` and `IsDisclosureDir` apply the Latin-1 rules to them too.
- Utils.ExtractQuarter: only the ASCII digits 0-9 are accepted. Python's `int()` also accepts the other Unicode decimal digits (`int('٣')` is 3), so a file name starting with such a digit is rejected by the model but not by the program.
- Text.ParsePyInt: `int()` is modelled on ASCII digits only, so the year in `stem[2:6]` written with other Unicode decimal digits is rejected by the model but not by the program (`api_ans/transformer.py:110-111`).
- Aggregation.AggregateGroups: the total order is promised only as non-increasing. The order pandas gives to equal totals is not modelled: that is its default sort after `groupby`'s key-ordered groups.
- Aggregation.GroupAll: groups come in order of first appearance rather than `groupby`'s sorted key order. Only membership, sums and counts are stated, and those are independent of the order.
- Registry.ReadCadopRoundTrip: the round trip is stated for a header that normalises to the five names in order. Other column orders are not covered by the lemma.
- Scraper.QuarterKeys: after the failure check, the fallback quarter 0 in `ArchiveOf` is never used.

=== FILE: aggregation.dfy ===
/** api_ans/transformer.py, aggregate_expenses: group the joined rows by
    operator and period, sum and average the expenses, order the groups by
    total and write both amounts in the Brazilian format. */
module Aggregation {
  import opened Results
  import opened Seqs
  import opened Utils
  import opened Quarterly
  import opened Enrichment
  import Registry

  /** The columns of the frame enrich_with_cadop returns. */
  const EnrichedColumns: set<string> :=
    {"RegistroANS", "ValorDespesas", "Ano", "Trimestre", "RazaoSocial", "CNPJ", "UF", "Modalidade"}

  /** The columns aggregate_expenses refuses to run without. */
  const RequiredColumns: set<string> := {"CNPJ", "RazaoSocial", "UF", "Ano", "Trimestre", "ValorDespesas"}

  /** The groupby key: CNPJ, RazaoSocial, UF, Ano, Trimestre. */
  datatype GroupKey = GroupKey(cnpj: string, razaoSocial: string, uf: string, ano: int, trimestre: int)

  /** The key of a joined row, or None when its registry columns are
      missing: groupby leaves such rows out (dropna). */
  function KeyOf(y: EnrichedRecord): (k: Option<GroupKey>)
    ensures k.None? <==> y.registry.None?
  {
    match y.registry
    case None => None
    case Some(info) => Some(GroupKey(info.cnpj, info.razaoSocial, info.uf, y.expense.ano, y.expense.trimestre))
  }

  // ---------------------------------------------------------------------------
  // Reference definitions: the sum and the size of one group
  // ---------------------------------------------------------------------------

  function SumFor(rows: seq<EnrichedRecord>, k: GroupKey): real {
    if rows == [] then 0.0
    else
      var last := rows[|rows| - 1];
      SumFor(rows[..|rows| - 1], k) + (if KeyOf(last) == Some(k) then last.expense.valorDespesas else 0.0)
  }

  function CountFor(rows: seq<EnrichedRecord>, k: GroupKey): nat {
    if rows == [] then 0
    else
      var last := rows[|rows| - 1];
      CountFor(rows[..|rows| - 1], k) + (if KeyOf(last) == Some(k) then 1 else 0)
  }

  lemma {:induction false} EmptyGroupSum(rows: seq<EnrichedRecord>, k: GroupKey)
    requires CountFor(rows, k) == 0
    ensures SumFor(rows, k) == 0.0
  {
    if rows != [] {
      EmptyGroupSum(rows[..|rows| - 1], k);
    }
  }

  // ---------------------------------------------------------------------------
  // groupby(...).agg(sum, mean) before the means are taken
  // ---------------------------------------------------------------------------

  /** One group: its key, the sum of its expenses and how many rows it has. */
  datatype Group = Group(key: GroupKey, total: real, count: Size)

  /** pandas never forms an empty group. */
  type Size = n: nat | n >= 1 witness 1

  predicate DistinctKeys(gs: seq<Group>) {
    forall i, j :: 0 <= i < j < |gs| ==> gs[i].key != gs[j].key
  }

  /** The first group with key k. */
  function Find(gs: seq<Group>, k: GroupKey): (r: Option<Group>)
    ensures r.None? <==> forall i :: 0 <= i < |gs| ==> gs[i].key != k
    ensures r.Some? ==> r.value in gs && r.value.key == k
  {
    if gs == [] then None
    else if gs[0].key == k then Some(gs[0])
    else
      var rest := Find(gs[1..], k);
      assert forall i :: 1 <= i < |gs| ==> gs[i] == gs[1..][i - 1];
      rest
  }

  /** With distinct keys, a group is the one found under its own key. */
  lemma {:induction false} FindMember(gs: seq<Group>, g: Group)
    requires DistinctKeys(gs) && g in gs
    ensures Find(gs, g.key) == Some(g)
  {
    if gs[0] != g {
      assert g in gs[1..];
      var i :| 0 <= i < |gs[1..]| && gs[1..][i] == g;
      assert gs[i + 1] == g;
      FindMember(gs[1..], g);
    }
  }

  lemma FindCons(g: Group, t: seq<Group>, q: GroupKey)
    ensures Find([g] + t, q) == if g.key == q then Some(g) else Find(t, q)
  {
    assert ([g] + t)[1..] == t;
  }

  /** The group under key k once a row of value v is added to it. */
  function Added(before: Option<Group>, k: GroupKey, v: real): Group {
    match before
    case None => Group(k, v, 1)
    case Some(g) => Group(k, g.total + v, g.count + 1)
  }

  /** Adds one row's value to the group with key k, opening the group at
      the end if it does not exist yet. */
  function AddRow(gs: seq<Group>, k: GroupKey, v: real): (r: seq<Group>)
    requires DistinctKeys(gs)
    ensures DistinctKeys(r)
    ensures Find(r, k) == Some(Added(Find(gs, k), k, v))
    ensures forall q :: q != k ==> Find(r, q) == Find(gs, q)
  {
    if gs == [] then [Group(k, v, 1)]
    else if gs[0].key == k then
      var r := [Added(Some(gs[0]), k, v)] + gs[1..];
      AddToHead(gs, k, v);
      r
    else
      var rest := AddRow(gs[1..], k, v);
      AddBehindHead(gs, k, v, rest);
      [gs[0]] + rest
  }

  lemma AddToHead(gs: seq<Group>, k: GroupKey, v: real)
    requires DistinctKeys(gs) && gs != [] && gs[0].key == k
    ensures DistinctKeys([Added(Some(gs[0]), k, v)] + gs[1..])
    ensures Find([Added(Some(gs[0]), k, v)] + gs[1..], k) == Some(Added(Find(gs, k), k, v))
    ensures forall q :: q != k ==> Find([Added(Some(gs[0]), k, v)] + gs[1..], q) == Find(gs, q)
  {
    var r := [Added(Some(gs[0]), k, v)] + gs[1..];
    assert gs == [gs[0]] + gs[1..];
    forall q ensures Find(r, q) == (if q == k then Some(r[0]) else Find(gs[1..], q))
               && Find(gs, q) == (if q == k then Some(gs[0]) else Find(gs[1..], q)) {
      FindCons(r[0], gs[1..], q);
      FindCons(gs[0], gs[1..], q);
    }
  }

  lemma AddBehindHead(gs: seq<Group>, k: GroupKey, v: real, rest: seq<Group>)
    requires DistinctKeys(gs) && gs != [] && gs[0].key != k
    requires DistinctKeys(rest)
    requires Find(rest, k) == Some(Added(Find(gs[1..], k), k, v))
    requires forall q :: q != k ==> Find(rest, q) == Find(gs[1..], q)
    ensures DistinctKeys([gs[0]] + rest)
    ensures Find([gs[0]] + rest, k) == Some(Added(Find(gs, k), k, v))
    ensures forall q :: q != k ==> Find([gs[0]] + rest, q) == Find(gs, q)
  {
    assert gs == [gs[0]] + gs[1..];
    forall q ensures Find([gs[0]] + rest, q) == (if q == gs[0].key then Some(gs[0]) else Find(rest, q))
               && Find(gs, q) == (if q == gs[0].key then Some(gs[0]) else Find(gs[1..], q)) {
      FindCons(gs[0], rest, q);
      FindCons(gs[0], gs[1..], q);
    }
    RestAvoidsHead(gs, k, rest);
  }

  /** No group of rest carries the head's key: k differs from it, and every
      other key of rest is already a key of gs[1..]. */
  lemma RestAvoidsHead(gs: seq<Group>, k: GroupKey, rest: seq<Group>)
    requires DistinctKeys(gs) && gs != [] && gs[0].key != k
    requires forall q :: q != k ==> Find(rest, q) == Find(gs[1..], q)
    ensures forall i :: 0 <= i < |rest| ==> rest[i].key != gs[0].key
  {
    forall i | 0 <= i < |rest| ensures rest[i].key != gs[0].key {
      var q := rest[i].key;
      if q != k {
        assert Find(rest, q).Some?;
        var j :| 0 <= j < |gs[1..]| && gs[1..][j] == Find(rest, q).value;
        assert gs[j + 1].key == q;
      }
    }
  }

  /** What the groups of rows must be under each key: none when no row has
      the key, otherwise the sum and the number of exactly those rows. */
  function Expected(rows: seq<EnrichedRecord>, q: GroupKey): Option<Group> {
    var n := CountFor(rows, q);
    if n == 0 then None else Some(Group(q, SumFor(rows, q), n))
  }

  ghost predicate GroupsOf(rows: seq<EnrichedRecord>, gs: seq<Group>) {
    DistinctKeys(gs) && forall q :: Find(gs, q) == Expected(rows, q)
  }

  /** The groups in order of first appearance; under every key, the group
      found is exactly the expected one. */
  function GroupAll(rows: seq<EnrichedRecord>): (r: seq<Group>)
    ensures GroupsOf(rows, r)
  {
    if rows == [] then []
    else
      var init, last := rows[..|rows| - 1], rows[|rows| - 1];
      assert rows == init + [last];
      var gs := GroupAll(init);
      match KeyOf(last)
      case None =>
        UnmatchedKeepsGroups(init, last, gs);
        gs
      case Some(k) =>
        var r := AddRow(gs, k, last.expense.valorDespesas);
        AddRowKeepsGroups(init, last, gs, k, r);
        r
  }

  /** One more row adds its value to its own key's sum and nothing to the others. */
  lemma StepSums(init: seq<EnrichedRecord>, last: EnrichedRecord, q: GroupKey)
    ensures SumFor(init + [last], q) == SumFor(init, q) + (if KeyOf(last) == Some(q) then last.expense.valorDespesas else 0.0)
    ensures CountFor(init + [last], q) == CountFor(init, q) + (if KeyOf(last) == Some(q) then 1 else 0)
  {
    var rows := init + [last];
    assert rows[..|rows| - 1] == init && rows[|rows| - 1] == last;
  }

  lemma UnmatchedKeepsGroups(init: seq<EnrichedRecord>, last: EnrichedRecord, gs: seq<Group>)
    requires GroupsOf(init, gs) && KeyOf(last).None?
    ensures GroupsOf(init + [last], gs)
  {
    forall q ensures Expected(init + [last], q) == Expected(init, q) {
      StepSums(init, last, q);
    }
  }

  lemma AddRowKeepsGroups(init: seq<EnrichedRecord>, last: EnrichedRecord, gs: seq<Group>, k: GroupKey, r: seq<Group>)
    requires GroupsOf(init, gs)
    requires KeyOf(last) == Some(k) && r == AddRow(gs, k, last.expense.valorDespesas)
    ensures GroupsOf(init + [last], r)
  {
    forall q ensures Find(r, q) == Expected(init + [last], q) {
      if q == k {
        AddRowOwnKey(init, last, gs, k, r);
      } else {
        StepSums(init, last, q);
        assert Expected(init + [last], q) == Expected(init, q);
      }
    }
  }

  lemma AddRowOwnKey(init: seq<EnrichedRecord>, last: EnrichedRecord, gs: seq<Group>, k: GroupKey, r: seq<Group>)
    requires GroupsOf(init, gs)
    requires KeyOf(last) == Some(k) && r == AddRow(gs, k, last.expense.valorDespesas)
    ensures Find(r, k) == Expected(init + [last], k)
  {
    var v := last.expense.valorDespesas;
    StepSums(init, last, k);
    assert Find(r, k) == Some(Added(Find(gs, k), k, v));
    if CountFor(init, k) == 0 {
      EmptyGroupSum(init, k);
    }
    AddedExpected(init, k, v, Find(gs, k), SumFor(init + [last], k), CountFor(init + [last], k));
  }

  /** Adding a value to the expected group of init gives the expected
      group once the row carrying it is counted. */
  lemma AddedExpected(init: seq<EnrichedRecord>, k: GroupKey, v: real, found: Option<Group>, sum: real, count: nat)
    requires found == Expected(init, k)
    requires sum == SumFor(init, k) + v && count == CountFor(init, k) + 1
    requires CountFor(init, k) == 0 ==> SumFor(init, k) == 0.0
    ensures Some(Added(found, k, v)) == (if count == 0 then None else Some(Group(k, sum, count)))
  {
  }

  /** Rows that found no operator change nothing. */
  lemma UnmatchedRowIgnored(rows: seq<EnrichedRecord>, y: EnrichedRecord)
    requires y.registry.None?
    ensures GroupAll(rows + [y]) == GroupAll(rows)
  {
    var all := rows + [y];
    assert all[..|all| - 1] == rows;
  }

  /** With no matched row at all, there is no group. */
  lemma {:induction false} AllUnmatchedNoGroups(rows: seq<EnrichedRecord>)
    requires forall i :: 0 <= i < |rows| ==> rows[i].registry.None?
    ensures GroupAll(rows) == []
  {
    if rows != [] {
      AllUnmatchedNoGroups(rows[..|rows| - 1]);
    }
  }

  // ---------------------------------------------------------------------------
  // sort_values("DespesaTotal", ascending=False)
  // ---------------------------------------------------------------------------

  /** a may come before b: its total is at least as large. */
  predicate TotalFirst(a: Group, b: Group) {
    a.total >= b.total
  }

  lemma TotalFirstTotalPreorder()
    ensures TotalPreorder(TotalFirst)
  {
  }

  /** The column check, the grouping and the descending sort: the result
      is a permutation of the groups, ordered by total from largest to
      smallest. A missing column is the ValueError, carrying exactly the
      missing names. */
  function AggregateGroups(columns: set<string>, rows: seq<EnrichedRecord>): (r: Result<seq<Group>, set<string>>)
    ensures r.Err? <==> !(RequiredColumns <= columns)
    ensures r.Err? ==> r.error == RequiredColumns - columns
    ensures r.Ok? ==> multiset(r.value) == multiset(GroupAll(rows))
    ensures r.Ok? ==> SortedBy(r.value, TotalFirst)
    ensures r.Ok? ==> forall g :: g in r.value ==> Some(g) == Expected(rows, g.key)
  {
    if !(RequiredColumns <= columns) then Err(RequiredColumns - columns)
    else
      SortedGroups(rows);
      Ok(SortBy(GroupAll(rows), TotalFirst))
  }

  lemma SortedGroups(rows: seq<EnrichedRecord>)
    ensures multiset(SortBy(GroupAll(rows), TotalFirst)) == multiset(GroupAll(rows))
    ensures SortedBy(SortBy(GroupAll(rows), TotalFirst), TotalFirst)
    ensures forall g :: g in SortBy(GroupAll(rows), TotalFirst) ==> Some(g) == Expected(rows, g.key)
  {
    var gs := GroupAll(rows);
    var sorted := SortBy(gs, TotalFirst);
    TotalFirstTotalPreorder();
    SortSorted(gs, TotalFirst);
    forall g | g in sorted ensures Some(g) == Expected(rows, g.key) {
      assert g in multiset(sorted);
      FindMember(gs, g);
    }
  }

  // ---------------------------------------------------------------------------
  // The mean and the money format
  // ---------------------------------------------------------------------------

  /** Rounding to whole cents as `{:,.2f}` does on an exact value: to the
      nearest integer number of cents, halves to the even one. */
  function RoundCents(x: real): (r: int)
    ensures -0.5 <= r as real - x * 100.0 <= 0.5
    ensures (r as real - x * 100.0 == 0.5 || r as real - x * 100.0 == -0.5) ==> r % 2 == 0
  {
    var y := x * 100.0;
    var f := y.Floor;
    var d := y - f as real;
    if d < 0.5 then f
    else if d > 0.5 then f + 1
    else if f % 2 == 0 then f
    else f + 1
  }

  /** An amount already in whole cents is not changed by the rounding. */
  lemma RoundCentsExact(c: int)
    ensures RoundCents(c as real / 100.0) == c
  {
    assert (c as real / 100.0) * 100.0 == c as real;
  }

  /** Rounding never reverses the order of two amounts. */
  lemma RoundCentsMonotone(x: real, y: real)
    requires x <= y
    ensures RoundCents(x) <= RoundCents(y)
  {
    assert x * 100.0 <= y * 100.0;
  }

  /** The mean of a group: its total over its size. */
  function Mean(g: Group): (m: real)
    ensures m * g.count as real == g.total
  {
    g.total / g.count as real
  }

  /** One output row: the key and both amounts written by format_brl. */
  datatype AggregatedRow = AggregatedRow(
    cnpj: string, razaoSocial: string, uf: string, ano: int, trimestre: int,
    despesaTotal: string, despesaMediaTrimestre: string)

  /** The key of an output row. */
  function RowKey(a: AggregatedRow): GroupKey {
    GroupKey(a.cnpj, a.razaoSocial, a.uf, a.ano, a.trimestre)
  }

  function FormatGroup(g: Group): (r: AggregatedRow)
    ensures RowKey(r) == g.key
    ensures r.despesaTotal == BrlText(RoundCents(g.total))
    ensures r.despesaMediaTrimestre == BrlText(RoundCents(Mean(g)))
  {
    FormatBrlCases(Some(RoundCents(g.total)));
    FormatBrlCases(Some(RoundCents(Mean(g))));
    AggregatedRow(g.key.cnpj, g.key.razaoSocial, g.key.uf, g.key.ano, g.key.trimestre,
                  FormatBrl(Some(RoundCents(g.total))), FormatBrl(Some(RoundCents(Mean(g)))))
  }

  /** aggregate_expenses as a whole: the column check, then one written
      row per operator and period with matched rows, largest total first.
      Every row states its group faithfully, no key is missing or written
      twice, and the sums never increase down the table, neither exactly
      nor once rounded to the cents that are written. */
  function AggregateExpenses(columns: set<string>, rows: seq<EnrichedRecord>): (r: Result<seq<AggregatedRow>, set<string>>)
    ensures r.Err? <==> !(RequiredColumns <= columns)
    ensures r.Err? ==> r.error == RequiredColumns - columns
    ensures r.Ok? ==> |r.value| == |GroupAll(rows)|
    ensures r.Ok? ==> forall i :: 0 <= i < |r.value| ==> States(rows, r.value[i])
    ensures r.Ok? ==> forall k :: CountFor(rows, k) > 0 <==> exists i :: 0 <= i < |r.value| && RowKey(r.value[i]) == k
    ensures r.Ok? ==> forall i, j :: 0 <= i < j < |r.value| ==> RowKey(r.value[i]) != RowKey(r.value[j])
    ensures r.Ok? ==> forall i, j :: 0 <= i < j < |r.value| ==>
                        SumFor(rows, RowKey(r.value[i])) >= SumFor(rows, RowKey(r.value[j]))
                        && RoundCents(SumFor(rows, RowKey(r.value[i]))) >= RoundCents(SumFor(rows, RowKey(r.value[j])))
  {
    match AggregateGroups(columns, rows)
    case Err(missing) => Err(missing)
    case Ok(gs) =>
      var out := seq(|gs|, i requires 0 <= i < |gs| => FormatGroup(gs[i]));
      OutputStates(rows, gs, out);
      OutputCovers(rows, gs, out);
      OutputDescending(rows, gs, out);
      Ok(out)
  }

  // ---------------------------------------------------------------------------
  // What the written table says
  // ---------------------------------------------------------------------------

  /** The amount a format_brl text denotes, read with the quarterly files'
      own value parser after the "R$ " prefix. */
  function Amount(text: string): Option<real> {
    if |text| >= 3 then ParseValue(text[3..]) else None
  }

  lemma AmountOfBrl(c: int)
    ensures Amount(BrlText(c)) == Some(c as real / 100.0)
  {
    FormatBrlCases(Some(c));
    BrlValueRoundTrip(c);
  }

  /** A written amount reads back as x rounded to whole cents. */
  ghost predicate ReadsAs(text: string, x: real) {
    Amount(text) == Some(RoundCents(x) as real / 100.0)
  }

  /** An output row states its group faithfully: the group has rows, the
      total column is format_brl's text for their sum rounded to cents and
      the mean column for their mean rounded to cents, and each text reads
      back as that rounded amount. */
  ghost predicate States(rows: seq<EnrichedRecord>, a: AggregatedRow) {
    var k := RowKey(a);
    && CountFor(rows, k) >= 1
    && a.despesaTotal == BrlText(RoundCents(SumFor(rows, k)))
    && a.despesaMediaTrimestre == BrlText(RoundCents(SumFor(rows, k) / CountFor(rows, k) as real))
    && ReadsAs(a.despesaTotal, SumFor(rows, k))
    && ReadsAs(a.despesaMediaTrimestre, SumFor(rows, k) / CountFor(rows, k) as real)
  }

  /** The text written for an amount rounded to cents reads back as that
      rounded amount. */
  lemma RoundedReadBack(text: string, x: real)
    requires text == BrlText(RoundCents(x))
    ensures ReadsAs(text, x)
  {
    AmountOfBrl(RoundCents(x));
  }

  lemma FormatGroupStates(rows: seq<EnrichedRecord>, g: Group)
    requires Some(g) == Expected(rows, g.key)
    ensures States(rows, FormatGroup(g))
  {
    var a := FormatGroup(g);
    RowStates(rows, g, a.despesaTotal, a.despesaMediaTrimestre, a);
  }

  /** The row written for a group states it, once its two texts are known
      to be the group's rounded amounts. */
  lemma RowStates(rows: seq<EnrichedRecord>, g: Group, total: string, mean: string, a: AggregatedRow)
    requires Some(g) == Expected(rows, g.key) && RowKey(a) == g.key
    requires total == BrlText(RoundCents(g.total)) && mean == BrlText(RoundCents(Mean(g)))
    requires a.despesaTotal == total && a.despesaMediaTrimestre == mean
    ensures States(rows, a)
  {
    var k := g.key;
    var n := CountFor(rows, k);
    assert Mean(g) == SumFor(rows, k) / n as real;
    RoundedReadBack(total, SumFor(rows, k));
    RoundedReadBack(mean, SumFor(rows, k) / n as real);
  }

  /** The rows written for the sorted groups, one per group and in order. */
  ghost predicate WrittenFrom(gs: seq<Group>, out: seq<AggregatedRow>) {
    |out| == |gs| && forall i :: 0 <= i < |gs| ==> out[i] == FormatGroup(gs[i])
  }

  /** Each written row states its group, and has its group's key. */
  lemma OutputStates(rows: seq<EnrichedRecord>, gs: seq<Group>, out: seq<AggregatedRow>)
    requires forall g :: g in gs ==> Some(g) == Expected(rows, g.key)
    requires multiset(gs) == multiset(GroupAll(rows))
    requires WrittenFrom(gs, out)
    ensures |out| == |GroupAll(rows)|
    ensures forall i :: 0 <= i < |out| ==> States(rows, out[i]) && RowKey(out[i]) == gs[i].key
  {
    assert |multiset(gs)| == |multiset(GroupAll(rows))|;
    forall i | 0 <= i < |out| ensures States(rows, out[i]) && RowKey(out[i]) == gs[i].key {
      assert gs[i] in gs;
      FormatGroupStates(rows, gs[i]);
    }
  }

  /** The written keys are the keys with matched rows, each once. */
  lemma OutputCovers(rows: seq<EnrichedRecord>, gs: seq<Group>, out: seq<AggregatedRow>)
    requires forall g :: g in gs ==> Some(g) == Expected(rows, g.key)
    requires multiset(gs) == multiset(GroupAll(rows))
    requires WrittenFrom(gs, out)
    ensures forall k :: CountFor(rows, k) > 0 <==> exists i :: 0 <= i < |out| && RowKey(out[i]) == k
    ensures forall i, j :: 0 <= i < j < |out| ==> RowKey(out[i]) != RowKey(out[j])
  {
    GroupKeys(rows, gs);
    assert forall i :: 0 <= i < |out| ==> RowKey(out[i]) == gs[i].key;
  }

  /** The written sums never increase down the table. */
  lemma OutputDescending(rows: seq<EnrichedRecord>, gs: seq<Group>, out: seq<AggregatedRow>)
    requires forall g :: g in gs ==> Some(g) == Expected(rows, g.key)
    requires SortedBy(gs, TotalFirst)
    requires WrittenFrom(gs, out)
    ensures forall i, j :: 0 <= i < j < |out| ==>
              SumFor(rows, RowKey(out[i])) >= SumFor(rows, RowKey(out[j]))
              && RoundCents(SumFor(rows, RowKey(out[i]))) >= RoundCents(SumFor(rows, RowKey(out[j])))
  {
    GroupsDescending(rows, gs);
    assert forall i :: 0 <= i < |out| ==> RowKey(out[i]) == gs[i].key;
  }

  /** The sorted groups carry every key with matched rows, and each such
      key once. */
  lemma GroupKeys(rows: seq<EnrichedRecord>, gs: seq<Group>)
    requires forall g :: g in gs ==> Some(g) == Expected(rows, g.key)
    requires multiset(gs) == multiset(GroupAll(rows))
    ensures forall k :: CountFor(rows, k) > 0 <==> exists i :: 0 <= i < |gs| && gs[i].key == k
    ensures forall i, j :: 0 <= i < j < |gs| ==> gs[i].key != gs[j].key
  {
    forall k ensures CountFor(rows, k) > 0 <==> exists i :: 0 <= i < |gs| && gs[i].key == k {
      if CountFor(rows, k) > 0 {
        var g := Find(GroupAll(rows), k).value;
        assert g in multiset(gs);
        var i :| 0 <= i < |gs| && gs[i] == g;
      }
      if exists i :: 0 <= i < |gs| && gs[i].key == k {
        var i :| 0 <= i < |gs| && gs[i].key == k;
        assert gs[i] in gs;
      }
    }
    forall i, j | 0 <= i < j < |gs| ensures gs[i].key != gs[j].key {
      SortedKeysDistinct(rows, gs, i, j);
    }
  }

  /** Two groups of the sorted result never share a key: equal keys would
      mean one group counted twice. */
  lemma SortedKeysDistinct(rows: seq<EnrichedRecord>, gs: seq<Group>, i: nat, j: nat)
    requires forall g :: g in gs ==> Some(g) == Expected(rows, g.key)
    requires multiset(gs) == multiset(GroupAll(rows))
    requires i < j < |gs|
    ensures gs[i].key != gs[j].key
  {
    if gs[i].key == gs[j].key {
      assert gs[i] in gs && gs[j] in gs;
      TwoCopies(gs, i, j);
      AtMostOnce(GroupAll(rows), gs[i]);
      assert false;
    }
  }

  lemma TwoCopies(gs: seq<Group>, i: nat, j: nat)
    requires i < j < |gs| && gs[i] == gs[j]
    ensures multiset(gs)[gs[i]] >= 2
  {
    assert gs == gs[..j] + gs[j..];
    assert gs[..j][i] == gs[i] && gs[j..][0] == gs[i];
    assert multiset(gs) == multiset(gs[..j]) + multiset(gs[j..]);
  }

  lemma {:induction false} AtMostOnce(gs: seq<Group>, g: Group)
    requires DistinctKeys(gs)
    ensures multiset(gs)[g] <= 1
  {
    if gs != [] {
      assert gs == [gs[0]] + gs[1..];
      assert DistinctKeys(gs[1..]) by {
        forall i, j | 0 <= i < j < |gs[1..]| ensures gs[1..][i].key != gs[1..][j].key {
          assert gs[1..][i] == gs[i + 1] && gs[1..][j] == gs[j + 1];
        }
      }
      AtMostOnce(gs[1..], g);
      if gs[0] == g {
        assert g !in gs[1..] by {
          forall i | 0 <= i < |gs[1..]| ensures gs[1..][i] != g {
            assert gs[1..][i] == gs[i + 1];
          }
        }
      }
    }
  }

  /** Down the sorted groups the exact sums never increase, and neither
      do the sums rounded to cents. */
  lemma GroupsDescending(rows: seq<EnrichedRecord>, gs: seq<Group>)
    requires forall g :: g in gs ==> Some(g) == Expected(rows, g.key)
    requires SortedBy(gs, TotalFirst)
    ensures forall i, j :: 0 <= i < j < |gs| ==> SumFor(rows, gs[i].key) >= SumFor(rows, gs[j].key)
    ensures forall i, j :: 0 <= i < j < |gs| ==> RoundCents(SumFor(rows, gs[i].key)) >= RoundCents(SumFor(rows, gs[j].key))
  {
    forall i, j | 0 <= i < j < |gs|
      ensures SumFor(rows, gs[i].key) >= SumFor(rows, gs[j].key)
      ensures RoundCents(SumFor(rows, gs[i].key)) >= RoundCents(SumFor(rows, gs[j].key))
    {
      assert gs[i] in gs && gs[j] in gs;
      assert TotalFirst(gs[i], gs[j]);
      RoundCentsMonotone(gs[j].total, gs[i].total);
    }
  }

  /** The joined frame always carries the required columns, so in the
      pipeline the aggregation never raises. */
  lemma PipelineAggregates(expenses: seq<QuarterlyRecord>, registry: seq<Registry.RegistryRecord>)
    ensures AggregateExpenses(EnrichedColumns, Enrich(expenses, registry)).Ok?
  {
    assert RequiredColumns <= EnrichedColumns;
  }

  /** Expenses no operator matches never reach the table: when no id of
      the expenses is in the registry, it has no row. */
  lemma NoMatchNoRows(columns: set<string>, expenses: seq<QuarterlyRecord>, registry: seq<Registry.RegistryRecord>)
    requires forall i, j :: 0 <= i < |expenses| && 0 <= j < |registry| ==> registry[j].registroAns != expenses[i].registroAns
    requires RequiredColumns <= columns
    ensures AggregateExpenses(columns, Enrich(expenses, registry)) == Ok([])
  {
    NoMatchAllUnmatched(expenses, registry);
    AllUnmatchedNoGroups(Enrich(expenses, registry));
  }

  lemma NoMatchAllUnmatched(expenses: seq<QuarterlyRecord>, registry: seq<Registry.RegistryRecord>)
    requires forall i, j :: 0 <= i < |expenses| && 0 <= j < |registry| ==> registry[j].registroAns != expenses[i].registroAns
    ensures forall i :: 0 <= i < |Enrich(expenses, registry)| ==> Enrich(expenses, registry)[i].registry.None?
  {
    var rows := Enrich(expenses, registry);
    EnrichRows(expenses, registry);
    forall i | 0 <= i < |rows| ensures rows[i].registry.None? {
      assert rows[i] in rows;
    }
  }
}

=== FILE: enrichment.dfy ===
/** api_ans/transformer.py, enrich_with_cadop: the left join of the
    consolidated expenses with the operator registry on RegistroANS. */
module Enrichment {
  import opened Results
  import opened Seqs
  import opened Quarterly
  import opened Registry

  /** The registry columns the join brings in: RazaoSocial, CNPJ, UF, Modalidade. */
  datatype RegistryInfo = RegistryInfo(razaoSocial: string, cnpj: string, uf: string, modalidade: string)

  function InfoOf(x: RegistryRecord): RegistryInfo {
    RegistryInfo(x.razaoSocial, x.cnpj, x.uf, x.modalidade)
  }

  /** One row of the joined frame; `registry` is None where the left join
      found no operator and pandas fills the four columns with NaN. */
  datatype EnrichedRecord = EnrichedRecord(expense: QuarterlyRecord, registry: Option<RegistryInfo>)

  /** The registry rows carrying the given id, in registry order. */
  function Matches(registry: seq<RegistryRecord>, id: string): (r: seq<RegistryInfo>)
    ensures |r| <= |registry|
    ensures r == [] <==> forall j :: 0 <= j < |registry| ==> registry[j].registroAns != id
    ensures forall j :: 0 <= j < |registry| && registry[j].registroAns == id ==> InfoOf(registry[j]) in r
    ensures forall x :: x in r ==> exists j :: 0 <= j < |registry| && registry[j].registroAns == id && InfoOf(registry[j]) == x
  {
    if registry == [] then []
    else
      var rest := Matches(registry[1..], id);
      assert forall j :: 1 <= j < |registry| ==> registry[j] == registry[1..][j - 1];
      if registry[0].registroAns == id then [InfoOf(registry[0])] + rest else rest
  }

  /** The rows one expense contributes: one per matching operator, or a
      single row with the registry columns missing. */
  function EnrichRow(e: QuarterlyRecord, registry: seq<RegistryRecord>): (r: seq<EnrichedRecord>)
    ensures |r| >= 1
  {
    var m := Matches(registry, e.registroAns);
    if m == [] then [EnrichedRecord(e, None)]
    else Map((info: RegistryInfo) => EnrichedRecord(e, Some(info)), m)
  }

  /** `despesas.merge(cadop[...], on="RegistroANS", how="left")`: every
      expense is kept, in order, once per matching operator or once with no
      operator. */
  function Enrich(expenses: seq<QuarterlyRecord>, registry: seq<RegistryRecord>): (r: seq<EnrichedRecord>)
    ensures |r| >= |expenses|
  {
    if expenses == [] then [] else EnrichRow(expenses[0], registry) + Enrich(expenses[1..], registry)
  }

  /** A joined row is consistent with the registry: a filled row carries
      the data of an operator with the expense's id, and an empty one means
      that no operator has that id. */
  ghost predicate Consistent(registry: seq<RegistryRecord>, y: EnrichedRecord) {
    && (y.registry.Some? ==>
          exists j :: 0 <= j < |registry| && registry[j].registroAns == y.expense.registroAns
                      && InfoOf(registry[j]) == y.registry.value)
    && (y.registry.None? ==>
          forall j :: 0 <= j < |registry| ==> registry[j].registroAns != y.expense.registroAns)
  }

  /** Every (expense, operator) pair agreeing on the id appears in rows. */
  ghost predicate AllPairs(expenses: seq<QuarterlyRecord>, registry: seq<RegistryRecord>, rows: seq<EnrichedRecord>) {
    forall i, j :: 0 <= i < |expenses| && 0 <= j < |registry| && registry[j].registroAns == expenses[i].registroAns ==>
      EnrichedRecord(expenses[i], Some(InfoOf(registry[j]))) in rows
  }

  lemma EnrichRowFacts(e: QuarterlyRecord, registry: seq<RegistryRecord>)
    ensures forall y :: y in EnrichRow(e, registry) ==> y.expense == e && Consistent(registry, y)
    ensures AllPairs([e], registry, EnrichRow(e, registry))
  {
    var m := Matches(registry, e.registroAns);
    var head := EnrichRow(e, registry);
    if m != [] {
      forall y | y in head ensures y.expense == e && Consistent(registry, y) {
        var k :| 0 <= k < |head| && head[k] == y;
        assert m[k] in m;
      }
      forall j | 0 <= j < |registry| && registry[j].registroAns == e.registroAns
        ensures EnrichedRecord(e, Some(InfoOf(registry[j]))) in head
      {
        var k :| 0 <= k < |m| && m[k] == InfoOf(registry[j]);
        assert head[k] == EnrichedRecord(e, Some(InfoOf(registry[j])));
      }
    }
  }

  /** What the join promises: each output row comes from an input expense
      and is consistent with the registry, and every (expense, operator)
      pair that agrees on the id appears. */
  lemma {:induction false} EnrichRows(expenses: seq<QuarterlyRecord>, registry: seq<RegistryRecord>)
    ensures forall y :: y in Enrich(expenses, registry) ==> y.expense in expenses && Consistent(registry, y)
    ensures AllPairs(expenses, registry, Enrich(expenses, registry))
  {
    if expenses != [] {
      var e, tail := expenses[0], expenses[1..];
      var head, rest := EnrichRow(e, registry), Enrich(tail, registry);
      EnrichRows(tail, registry);
      EnrichRowFacts(e, registry);
      assert Enrich(expenses, registry) == head + rest;
      assert forall x :: x in tail ==> x in expenses;
      assert e in expenses;
      forall i, j | 0 <= i < |expenses| && 0 <= j < |registry| && registry[j].registroAns == expenses[i].registroAns
        ensures EnrichedRecord(expenses[i], Some(InfoOf(registry[j]))) in head + rest
      {
        if i > 0 {
          assert expenses[i] == tail[i - 1];
        } else {
          assert [e][0] == e;
        }
      }
    }
  }

  /** No expense is lost: each appears in at least one output row. */
  lemma {:induction false} EnrichKeepsExpenses(expenses: seq<QuarterlyRecord>, registry: seq<RegistryRecord>)
    ensures forall i :: 0 <= i < |expenses| ==> exists y :: y in Enrich(expenses, registry) && y.expense == expenses[i]
  {
    if expenses != [] {
      var tail := expenses[1..];
      var head, rest := EnrichRow(expenses[0], registry), Enrich(tail, registry);
      EnrichKeepsExpenses(tail, registry);
      EnrichRowFacts(expenses[0], registry);
      assert head[0] in head + rest;
      forall i | 1 <= i < |expenses| ensures exists y :: y in head + rest && y.expense == expenses[i] {
        assert expenses[i] == tail[i - 1];
        var y :| y in rest && y.expense == tail[i - 1];
        assert y in head + rest;
      }
    }
  }

  /** Splitting the expenses splits the join. */
  lemma {:induction false} EnrichAppend(a: seq<QuarterlyRecord>, b: seq<QuarterlyRecord>, registry: seq<RegistryRecord>)
    ensures Enrich(a + b, registry) == Enrich(a, registry) + Enrich(b, registry)
  {
    if a == [] {
      assert a + b == b;
    } else {
      var head := EnrichRow(a[0], registry);
      assert (a + b)[0] == a[0] && (a + b)[1..] == a[1..] + b;
      assert Enrich(a + b, registry) == head + Enrich(a[1..] + b, registry);
      EnrichAppend(a[1..], b, registry);
      assert head + (Enrich(a[1..], registry) + Enrich(b, registry))
          == (head + Enrich(a[1..], registry)) + Enrich(b, registry);
    }
  }

  /** No two registry rows share an id. */
  predicate UniqueIds(registry: seq<RegistryRecord>) {
    forall i, j :: 0 <= i < j < |registry| ==> registry[i].registroAns != registry[j].registroAns
  }

  /** With unique ids at most one operator matches, and it is that one. */
  lemma {:induction false} MatchesUnique(registry: seq<RegistryRecord>, id: string)
    requires UniqueIds(registry)
    ensures |Matches(registry, id)| <= 1
    ensures forall j :: 0 <= j < |registry| && registry[j].registroAns == id ==>
              Matches(registry, id) == [InfoOf(registry[j])]
  {
    if registry != [] {
      MatchesUnique(registry[1..], id);
      if registry[0].registroAns == id {
        assert Matches(registry[1..], id) == [] by {
          forall j | 0 <= j < |registry[1..]| ensures registry[1..][j].registroAns != id {
            assert registry[1..][j] == registry[j + 1];
          }
        }
      }
      forall j | 0 <= j < |registry| && registry[j].registroAns == id
        ensures Matches(registry, id) == [InfoOf(registry[j])]
      {
        if j > 0 {
          assert registry[j] == registry[1..][j - 1];
        }
      }
    }
  }

  /** With unique ids each expense yields exactly one row. */
  lemma EnrichRowUnique(e: QuarterlyRecord, registry: seq<RegistryRecord>)
    requires UniqueIds(registry)
    ensures |EnrichRow(e, registry)| == 1
    ensures EnrichRow(e, registry)[0].expense == e
    ensures EnrichRow(e, registry)[0].registry.Some? <==>
              exists j :: 0 <= j < |registry| && registry[j].registroAns == e.registroAns
    ensures forall j :: 0 <= j < |registry| && registry[j].registroAns == e.registroAns ==>
              EnrichRow(e, registry)[0].registry == Some(InfoOf(registry[j]))
  {
    MatchesUnique(registry, e.registroAns);
  }

  /** rows pair up one-to-one with expenses: row i is expense i, filled
      exactly when some operator carries its id, and then with that
      operator's data. */
  ghost predicate Joined(expenses: seq<QuarterlyRecord>, registry: seq<RegistryRecord>, rows: seq<EnrichedRecord>) {
    && |rows| == |expenses|
    && (forall i :: 0 <= i < |expenses| ==> rows[i].expense == expenses[i])
    && (forall i :: 0 <= i < |expenses| ==>
          (rows[i].registry.Some? <==> exists j :: 0 <= j < |registry| && registry[j].registroAns == expenses[i].registroAns))
    && (forall i, j :: 0 <= i < |expenses| && 0 <= j < |registry| && registry[j].registroAns == expenses[i].registroAns ==>
          rows[i].registry == Some(InfoOf(registry[j])))
  }

  /** When the registry has one row per id the join is one-to-one. */
  lemma {:induction false} EnrichOneToOne(expenses: seq<QuarterlyRecord>, registry: seq<RegistryRecord>)
    requires UniqueIds(registry)
    ensures Joined(expenses, registry, Enrich(expenses, registry))
  {
    if expenses != [] {
      var e, tail := expenses[0], expenses[1..];
      EnrichOneToOne(tail, registry);
      EnrichRowUnique(e, registry);
      var y := EnrichRow(e, registry)[0];
      assert EnrichRow(e, registry) == [y];
      JoinedCons(e, tail, registry, y, Enrich(tail, registry));
      assert expenses == [e] + tail;
    }
  }

  lemma JoinedCons(e: QuarterlyRecord, tail: seq<QuarterlyRecord>, registry: seq<RegistryRecord>,
                   y: EnrichedRecord, rest: seq<EnrichedRecord>)
    requires Joined(tail, registry, rest)
    requires y.expense == e
    requires y.registry.Some? <==> exists j :: 0 <= j < |registry| && registry[j].registroAns == e.registroAns
    requires forall j :: 0 <= j < |registry| && registry[j].registroAns == e.registroAns ==>
               y.registry == Some(InfoOf(registry[j]))
    ensures Joined([e] + tail, registry, [y] + rest)
  {
    var es, rows := [e] + tail, [y] + rest;
    forall i | 1 <= i < |es| ensures rows[i] == rest[i - 1] && es[i] == tail[i - 1] {
    }
  }
}

=== FILE: quarterly.dfy ===
/** api_ans/transformer.py, first stage: reading one quarterly accounting
    file (read_and_clean_quarter_csv) and consolidating all of them
    (consolidate_quarters). */
module Quarterly {
  import opened Results
  import opened Text
  import opened Seqs
  import opened Utils
  import opened Tables

  /** One expense row kept by the cleaning: RegistroANS, ValorDespesas, Ano, Trimestre. */
  datatype QuarterlyRecord = QuarterlyRecord(registroAns: string, valorDespesas: real, ano: int, trimestre: int)

  /** The labels the quarterly file must carry once normalised, in the
      order the mapping lists them. */
  const QuarterlyColumns: seq<string> := ["reg_ans", "vl_saldo_final"]

  // ---------------------------------------------------------------------------
  // The value rewrite
  // ---------------------------------------------------------------------------

  /** `.str.replace(".", "")` then `.str.replace(",", ".")`: Brazilian
      thousands points are dropped and the decimal comma becomes a point. */
  function LocaleToPoint(s: string): (r: string)
    ensures ',' !in r
    ensures |r| <= |s|
    ensures multiset(r)['.'] == multiset(s)[',']
    ensures forall c :: c != '.' && c != ',' ==> multiset(r)[c] == multiset(s)[c]
    ensures ReplaceChar(r, '.', ',') == DeleteChar(s, '.')
  {
    var t := DeleteChar(s, '.');
    var r := ReplaceChar(t, ',', '.');
    assert forall i :: 0 <= i < |r| ==> r[i] != ',';
    LocaleCounts(s);
    assert ReplaceChar(r, '.', ',') == t by {
      var back := ReplaceChar(r, '.', ',');
      forall i | 0 <= i < |t| ensures back[i] == t[i] {
        assert t[i] != '.' by {
          assert t[i] in t;
        }
      }
    }
    r
  }

  /** The counts behind LocaleToPoint: every comma becomes a point, the old
      points are gone and nothing else changes. */
  lemma LocaleCounts(s: string)
    ensures var r := ReplaceChar(DeleteChar(s, '.'), ',', '.');
      && multiset(r)['.'] == multiset(s)[',']
      && forall c :: c != '.' && c != ',' ==> multiset(r)[c] == multiset(s)[c]
  {
    var t := DeleteChar(s, '.');
    var r := ReplaceChar(t, ',', '.');
    ReplaceCharCount(t, ',', '.', '.');
    DeleteCharCount(s, '.', '.');
    DeleteCharCount(s, '.', ',');
    forall c | c != '.' && c != ','
      ensures multiset(r)[c] == multiset(s)[c]
    {
      ReplaceCharCount(t, ',', '.', c);
      DeleteCharCount(s, '.', c);
    }
  }

  /** The rewrite followed by pd.to_numeric(errors="coerce"): None when the
      text is not a number. */
  function ParseValue(s: string): (r: Option<real>)
    ensures s != [] && AllDigits(s) ==> r == Some(DigitsValue(s) as real)
  {
    assert s != [] && AllDigits(s) ==> LocaleToPoint(s) == s by {
      if s != [] && AllDigits(s) {
        assert '.' !in s;
        DeleteAbsentChar(s, '.');
        var r := ReplaceChar(s, ',', '.');
        assert forall i :: 0 <= i < |s| ==> r[i] == s[i];
      }
    }
    ParseDecimal(LocaleToPoint(s))
  }

  lemma ParseValueExample()
    ensures ParseValue("1.500,00") == Some(1500.0)
  {
    LocaleExample();
    DecimalExample();
  }

  lemma LocaleExample()
    ensures LocaleToPoint("1.500,00") == "1500.00"
  {
    DeletePointExample();
    ReplaceCommaExample();
  }

  lemma DeletePointExample()
    ensures DeleteChar("1.500,00", '.') == "1500,00"
  {
    DeleteAcross("1", '.', "500,00");
    DeleteAbsentChar("1", '.');
    assert "1" + ['.'] + "500,00" == "1.500,00";
    assert "1" + "500,00" == "1500,00";
  }

  lemma ReplaceCommaExample()
    ensures ReplaceChar("1500,00", ',', '.') == "1500.00"
  {
    ReplaceOnly("1500", ',', '.', "00");
    assert "1500" + [','] + "00" == "1500,00";
  }

  lemma DecimalExample()
    ensures ParseDecimal("1500.00") == Some(1500.0)
  {
    DigitsExample();
    assert Pow10(2) == 100;
    assert FixedValue("1500", "00") == 1500.0;
    ParseFixedPoint("1500", "00");
    assert "1500" + "." + "00" == "1500.00";
  }

  lemma DigitsExample()
    ensures DigitsValue("1500") == 1500 && DigitsValue("00") == 0
  {
    assert "1500"[..3] == "150";
    assert "150"[..2] == "15";
    assert "15"[..1] == "1";
    assert "00"[..1] == "0";
  }

  /** Text with no digit never parses, whatever it contains. */
  lemma ParseValueNeedsDigit(s: string)
    requires forall i :: 0 <= i < |s| ==> !IsDigit(s[i])
    ensures ParseValue(s) == None
  {
    var t := LocaleToPoint(s);
    if ParseDecimal(t).Some? {
      var i :| 0 <= i < |t| && IsDigit(t[i]);
      var d := DeleteChar(s, '.');
      assert t[i] == d[i];
      DeleteCharFrom(s, '.', d[i]);
      assert false;
    }
  }

  /** The locale rewrite turns an amount written by format_brl into the
      sign, the plain digits, '.' and the two cent digits. */
  lemma LocaleOfBrl(c: int)
    ensures LocaleToPoint(BrlText(c)[3..]) == SignText(c) + IntegerDigits(c) + "." + CentDigits(c)
  {
    var sign, ds, two := SignText(c), IntegerDigits(c), CentDigits(c);
    DeleteGroupingPoints(c);
    SignHasNo(c, ',');
    DigitsHaveNo(ds, ',');
    DigitsHaveNo(two, ',');
    assert ',' !in sign + ds;
    assert sign + (ds + "," + two) == (sign + ds) + [','] + two;
    ReplaceOnly(sign + ds, ',', '.', two);
    assert (sign + ds) + ['.'] + two == sign + ds + "." + two;
  }

  /** The amount format_brl writes is read back exactly by the value parser
      of the quarterly files: the two formats agree on the Brazilian
      convention. */
  lemma BrlValueRoundTrip(c: int)
    ensures ParseValue(FormatBrl(Some(c))[3..]) == Some(c as real / 100.0)
  {
    FormatBrlCases(Some(c));
    BrlDecimal(c);
  }

  lemma BrlDecimal(c: int)
    ensures ParseDecimal(LocaleToPoint(BrlText(c)[3..])) == Some(c as real / 100.0)
  {
    LocaleOfBrl(c);
    DigitsDecimal(c);
  }

  /** The sign, whole digits, '.' and cent digits parse to the amount. */
  lemma DigitsDecimal(c: int)
    ensures ParseDecimal(SignText(c) + IntegerDigits(c) + "." + CentDigits(c)) == Some(c as real / 100.0)
  {
    CentsValue(c);
    if c < 0 {
      NegativeDigits(c);
    } else {
      NonNegativeDigits(c);
    }
  }

  lemma NegativeDigits(c: int)
    requires c < 0
    ensures ParseDecimal(SignText(c) + IntegerDigits(c) + "." + CentDigits(c))
         == Some(Signed(c < 0, FixedValue(IntegerDigits(c), CentDigits(c))))
  {
    var w, two := IntegerDigits(c), CentDigits(c);
    ParseUnsignedFixedPoint(w, two);
    ParseDecimalNegated(w + "." + two, FixedValue(w, two));
    assert SignText(c) + w + "." + two == "-" + (w + "." + two);
  }

  lemma NonNegativeDigits(c: int)
    requires c >= 0
    ensures ParseDecimal(SignText(c) + IntegerDigits(c) + "." + CentDigits(c))
         == Some(Signed(c < 0, FixedValue(IntegerDigits(c), CentDigits(c))))
  {
    var w, two := IntegerDigits(c), CentDigits(c);
    ParseFixedPoint(w, two);
    assert SignText(c) + w == w;
  }

  /** The whole and cent digits denote the amount in units. */
  lemma CentsValue(c: int)
    ensures Signed(c < 0, FixedValue(IntegerDigits(c), CentDigits(c))) == c as real / 100.0
  {
    var q, m := Abs(c) / 100, Abs(c) % 100;
    assert Pow10(2) == 100;
    assert FixedValue(IntegerDigits(c), CentDigits(c)) == q as real + m as real / 100.0;
    CentsSplit(Abs(c));
  }

  lemma CentsSplit(n: nat)
    ensures (n / 100) as real + (n % 100) as real / 100.0 == n as real / 100.0
  {
    assert n == 100 * (n / 100) + n % 100;
  }

  // ---------------------------------------------------------------------------
  // read_and_clean_quarter_csv
  // ---------------------------------------------------------------------------

  /** One row: the trimmed id and the parsed value, tagged with the period,
      or nothing when the value does not parse (dropna). The id is never
      missing here: a missing id has already become the text "nan". */
  function CleanRow(row: seq<Cell>, idCol: nat, valueCol: nat, ano: int, trimestre: int): (r: Option<QuarterlyRecord>)
    ensures r.Some? <==> ParseValue(CellText(CellAt(row, valueCol))).Some?
    ensures r.Some? ==> r.value.registroAns == Strip(CellText(CellAt(row, idCol)))
    ensures r.Some? ==> r.value.valorDespesas == ParseValue(CellText(CellAt(row, valueCol))).value
    ensures r.Some? ==> r.value.ano == ano && r.value.trimestre == trimestre
  {
    match ParseValue(CellText(CellAt(row, valueCol)))
    case None => None
    case Some(v) => Some(QuarterlyRecord(Strip(CellText(CellAt(row, idCol))), v, ano, trimestre))
  }

  function CleanRows(rows: seq<seq<Cell>>, idCol: nat, valueCol: nat, ano: int, trimestre: int): (r: seq<QuarterlyRecord>)
    ensures |r| <= |rows|
  {
    Choose(row => CleanRow(row, idCol, valueCol, ano, trimestre), rows)
  }

  /** The whole function: normalise the labels, require both columns, then
      clean the rows. A missing column is the ValueError, carrying exactly
      the missing names. */
  function ReadAndCleanQuarter(table: Table, ano: int, trimestre: int): (r: Result<seq<QuarterlyRecord>, set<string>>)
    ensures r.Err? <==> exists n :: n in QuarterlyColumns && n !in NormalizeHeader(table.header)
    ensures r.Err? ==> r.error == MissingNames(NormalizeHeader(table.header), QuarterlyColumns) && r.error != {}
    ensures r.Ok? ==> |r.value| <= |table.rows|
    ensures r.Ok? ==> forall x :: x in r.value ==> x.ano == ano && x.trimestre == trimestre && IsStripped(x.registroAns)
  {
    CleanLabelled(NormalizeHeader(table.header), table.rows, ano, trimestre)
  }

  /** read_and_clean_quarter_csv once the labels are normalised. */
  function CleanLabelled(labels: seq<string>, rows: seq<seq<Cell>>, ano: int, trimestre: int): (r: Result<seq<QuarterlyRecord>, set<string>>)
    ensures r.Err? <==> exists n :: n in QuarterlyColumns && n !in labels
    ensures r.Err? ==> r.error == MissingNames(labels, QuarterlyColumns) && r.error != {}
    ensures r.Ok? ==> |r.value| <= |rows|
    ensures r.Ok? ==> forall x :: x in r.value ==> x.ano == ano && x.trimestre == trimestre && IsStripped(x.registroAns)
  {
    match SelectColumns(labels, QuarterlyColumns)
    case Err(missing) => Err(missing)
    case Ok(cols) =>
      var r := CleanRows(rows, cols[0], cols[1], ano, trimestre);
      assert forall x :: x in r ==> x.ano == ano && x.trimestre == trimestre && IsStripped(x.registroAns) by {
        forall x | x in r ensures x.ano == ano && x.trimestre == trimestre && IsStripped(x.registroAns) {
          ChooseFrom(row => CleanRow(row, cols[0], cols[1], ano, trimestre), rows, x);
        }
      }
      Ok(r)
  }

  /** Rows are cleaned one at a time: splitting the rows splits the result,
      so the output keeps the input order. */
  lemma ReadAndCleanRowsAppend(header: seq<string>, a: seq<seq<Cell>>, b: seq<seq<Cell>>, ano: int, trimestre: int)
    requires ReadAndCleanQuarter(Table(header, a + b), ano, trimestre).Ok?
    ensures ReadAndCleanQuarter(Table(header, a + b), ano, trimestre).value
         == ReadAndCleanQuarter(Table(header, a), ano, trimestre).value
          + ReadAndCleanQuarter(Table(header, b), ano, trimestre).value
  {
    var cols := SelectColumns(NormalizeHeader(header), QuarterlyColumns).value;
    ChooseAppend(row => CleanRow(row, cols[0], cols[1], ano, trimestre), a, b);
  }

  /** A single row is kept exactly when its value parses, with the trimmed
      id and the period tags. */
  lemma ReadAndCleanSingleRow(header: seq<string>, row: seq<Cell>, ano: int, trimestre: int)
    requires ReadAndCleanQuarter(Table(header, [row]), ano, trimestre).Ok?
    ensures var cols := SelectColumns(NormalizeHeader(header), QuarterlyColumns).value;
            var value := ParseValue(CellText(CellAt(row, cols[1])));
            ReadAndCleanQuarter(Table(header, [row]), ano, trimestre).value
              == if value.None? then []
                 else [QuarterlyRecord(Strip(CellText(CellAt(row, cols[0]))), value.value, ano, trimestre)]
  {
    CleanSingleRow(NormalizeHeader(header), row, ano, trimestre);
  }

  lemma CleanSingleRow(labels: seq<string>, row: seq<Cell>, ano: int, trimestre: int)
    requires CleanLabelled(labels, [row], ano, trimestre).Ok?
    ensures var cols := SelectColumns(labels, QuarterlyColumns).value;
            var value := ParseValue(CellText(CellAt(row, cols[1])));
            CleanLabelled(labels, [row], ano, trimestre).value
              == if value.None? then []
                 else [QuarterlyRecord(Strip(CellText(CellAt(row, cols[0]))), value.value, ano, trimestre)]
  {
    assert [row][1..] == [];
  }

  /** Labels are trimmed and lower-cased before the check. */
  lemma NormalizedLabelExample()
    ensures NormalizeLabel(" REG_ANS ") == "reg_ans"
  {
    StripExample();
    LowerExample();
  }

  lemma StripExample()
    ensures Strip(" REG_ANS ") == "REG_ANS"
  {
    TrimStartExample();
    TrimEndExample();
  }

  lemma TrimStartExample()
    ensures TrimStart(" REG_ANS ") == "REG_ANS "
  {
    var s := " REG_ANS ";
    assert TrimStart(s[1..]) == s[1..];
  }

  lemma TrimEndExample()
    ensures TrimEnd("REG_ANS ") == "REG_ANS"
  {
    assert "REG_ANS "[..7] == "REG_ANS";
    assert TrimEnd("REG_ANS") == "REG_ANS";
  }

  lemma LowerExample()
    ensures Lower("REG_ANS") == "reg_ans"
  {
    var l := Lower("REG_ANS");
    assert l == "reg_ans";
  }

  // ---------------------------------------------------------------------------
  // consolidate_quarters
  // ---------------------------------------------------------------------------

  /** A quarterly file: its name without extension and its parsed contents,
      None when read_csv raises. */
  datatype QuarterFile = QuarterFile(stem: string, contents: Option<Table>)

  /** Why a file was skipped. */
  datatype FileError = BadStem | Unreadable | MissingColumns(names: set<string>)

  datatype Period = Period(ano: int, trimestre: int)

  /** Python's s[i:j] for 0 <= i <= j: out-of-range bounds are clipped. */
  function PySlice(s: string, i: nat, j: nat): (r: string)
    requires i <= j
    ensures |r| <= j - i
    ensures j <= |s| ==> r == s[i..j]
    ensures var a, b := if i <= |s| then i else |s|, if j <= |s| then j else |s|; r == s[a..b]
  {
    if |s| <= i then [] else if |s| <= j then s[i..] else s[i..j]
  }

  /** int(stem[0]) is the quarter and int(stem[2:6]) the year; either
      failing skips the file. */
  function StemPeriod(stem: string): (r: Option<Period>)
    ensures r.Some? ==> stem != [] && IsDigit(stem[0]) && r.value.trimestre == DigitValue(stem[0])
    ensures r.Some? ==> ParsePyInt(PySlice(stem, 2, 6)) == Some(r.value.ano)
    ensures |stem| <= 2 ==> r == None
    ensures stem != [] && IsDigit(stem[0]) && ParsePyInt(PySlice(stem, 2, 6)).Some? ==> r.Some?
  {
    match ExtractQuarter(stem)
    case None => None
    case Some(q) =>
      match ParsePyInt(PySlice(stem, 2, 6))
      case None => None
      case Some(y) => Some(Period(y, q))
  }

  lemma StemPeriodExample()
    ensures StemPeriod("3T2025") == Some(Period(2025, 3))
  {
    assert PySlice("3T2025", 2, 6) == "2025";
    assert DigitsValue("2025") == 2025 by {
      assert "2025"[..3] == "202" && "202"[..2] == "20" && "20"[..1] == "2";
    }
  }

  /** The body of the try block for one file. */
  function ProcessFile(f: QuarterFile): (r: Result<seq<QuarterlyRecord>, FileError>)
    ensures StemPeriod(f.stem).None? ==> r == Err(BadStem)
    ensures StemPeriod(f.stem).Some? && f.contents.None? ==> r == Err(Unreadable)
    ensures StemPeriod(f.stem).Some? && f.contents.Some? ==>
              var labels := NormalizeHeader(f.contents.value.header);
              && (r.Ok? <==> forall n :: n in QuarterlyColumns ==> n in labels)
              && (r.Err? ==> r == Err(MissingColumns(MissingNames(labels, QuarterlyColumns))))
    ensures r.Ok? ==> forall x :: x in r.value ==> Some(Period(x.ano, x.trimestre)) == StemPeriod(f.stem)
  {
    match StemPeriod(f.stem)
    case None => Err(BadStem)
    case Some(p) =>
      match f.contents
      case None => Err(Unreadable)
      case Some(t) => ReadPeriod(t, p)
  }

  /** read_and_clean_quarter_csv for a file whose name gave the period p;
      the ValueError becomes the reason the file is skipped. */
  function ReadPeriod(t: Table, p: Period): (r: Result<seq<QuarterlyRecord>, FileError>)
    ensures var labels := NormalizeHeader(t.header);
      && (r.Ok? <==> forall n :: n in QuarterlyColumns ==> n in labels)
      && (r.Err? ==> r == Err(MissingColumns(MissingNames(labels, QuarterlyColumns))))
    ensures r.Ok? ==> forall x :: x in r.value ==> Period(x.ano, x.trimestre) == p
  {
    match ReadAndCleanQuarter(t, p.ano, p.trimestre)
    case Err(missing) => Err(MissingColumns(missing))
    case Ok(rows) => Ok(rows)
  }

  /** What one pass of the loop body leaves: the file's rows, or why the
      except branch skipped it. */
  type Outcome = Result<seq<QuarterlyRecord>, FileError>

  /** The rows of the outcomes that succeeded, in input order: the frames
      the loop appends. */
  function Successes(outcomes: seq<Outcome>): (r: seq<seq<QuarterlyRecord>>)
    ensures |r| <= |outcomes|
    ensures r == [] <==> forall i :: 0 <= i < |outcomes| ==> outcomes[i].Err?
  {
    if outcomes == [] then []
    else
      var rest := Successes(outcomes[1..]);
      assert forall i :: 1 <= i < |outcomes| ==> outcomes[i] == outcomes[1..][i - 1];
      match outcomes[0]
      case Err(_) => rest
      case Ok(rows) => [rows] + rest
  }

  lemma {:induction false} SuccessesAppend(a: seq<Outcome>, b: seq<Outcome>)
    ensures Successes(a + b) == Successes(a) + Successes(b)
  {
    if a == [] {
      assert a + b == b;
    } else {
      assert (a + b)[1..] == a[1..] + b;
      SuccessesAppend(a[1..], b);
    }
  }

  /** One more file: its rows are appended when it succeeded, and nothing
      changes when it failed. */
  lemma SuccessesStep(outcomes: seq<Outcome>, x: Outcome)
    ensures x.Ok? ==> Successes(outcomes + [x]) == Successes(outcomes) + [x.value]
    ensures x.Err? ==> Successes(outcomes + [x]) == Successes(outcomes)
  {
    SuccessesAppend(outcomes, [x]);
    assert [x][1..] == [];
  }

  datatype ConsolidateError = NoValidQuarter

  /** The loop with its per-file try/except, then the final check and concat. */
  method ConsolidateQuarters(files: seq<QuarterFile>) returns (r: Result<seq<QuarterlyRecord>, ConsolidateError>)
    ensures r.Err? <==> forall i :: 0 <= i < |files| ==> ProcessFile(files[i]).Err?
    ensures r.Ok? ==> r.value == Flatten(Successes(Map(ProcessFile, files)))
  {
    var frames: seq<seq<QuarterlyRecord>> := [];
    var outcomes: seq<Outcome> := [];
    var i := 0;
    while i < |files|
      invariant 0 <= i <= |files|
      invariant outcomes == Map(ProcessFile, files[..i])
      invariant frames == Successes(outcomes)
    {
      var result := ProcessFile(files[i]);
      SuccessesStep(outcomes, result);
      if result.Ok? {
        frames := frames + [result.value];
      }
      OutcomesStep(files, i);
      outcomes := outcomes + [result];
      i := i + 1;
    }
    assert files[..i] == files;
    NoFrameAllFailed(files);
    if frames == [] {
      return Err(NoValidQuarter);
    }
    return Ok(Flatten(frames));
  }

  lemma OutcomesStep(files: seq<QuarterFile>, i: nat)
    requires i < |files|
    ensures Map(ProcessFile, files[..i + 1]) == Map(ProcessFile, files[..i]) + [ProcessFile(files[i])]
  {
    assert files[..i + 1] == files[..i] + [files[i]];
    MapAppend(ProcessFile, files[..i], [files[i]]);
  }

  lemma NoFrameAllFailed(files: seq<QuarterFile>)
    ensures Successes(Map(ProcessFile, files)) == [] <==> forall i :: 0 <= i < |files| ==> ProcessFile(files[i]).Err?
  {
    var outcomes := Map(ProcessFile, files);
    assert forall i :: 0 <= i < |files| ==> outcomes[i] == ProcessFile(files[i]);
  }

  /** A file that fails is skipped without affecting the others. */
  lemma FailedFileSkipped(before: seq<Outcome>, x: Outcome, after: seq<Outcome>)
    requires x.Err?
    ensures Successes(before + [x] + after) == Successes(before + after)
  {
    SuccessesStep(before, x);
    SuccessesAppend(before + [x], after);
    SuccessesAppend(before, after);
  }

  /** A file that yields no rows still counts as processed: it is a frame,
      so the result is not an error, and it adds no row. */
  lemma EmptyFileCounts(before: seq<Outcome>, after: seq<Outcome>)
    ensures Successes(before + [Ok([])] + after) != []
    ensures Flatten(Successes(before + [Ok([])] + after)) == Flatten(Successes(before + after))
  {
    var x: Outcome := Ok([]);
    SuccessesStep(before, x);
    SuccessesAppend(before + [x], after);
    SuccessesAppend(before, after);
    FlattenAppend(Successes(before) + [[]], Successes(after));
    FlattenAppend(Successes(before), [[]]);
    FlattenAppend(Successes(before), Successes(after));
    var none: seq<seq<QuarterlyRecord>> := [[]];
    assert Flatten(none) == [];
  }
}

=== FILE: registry.dfy ===
/** api_ans/transformer.py, read_cadop: the registry of health-plan
    operators (CADOP), reduced to the five columns the enrichment needs. */
module Registry {
  import opened Results
  import opened Text
  import opened Seqs
  import opened Tables

  /** One operator: RegistroANS, RazaoSocial, CNPJ, UF, Modalidade. */
  datatype RegistryRecord = RegistryRecord(registroAns: string, razaoSocial: string, cnpj: string, uf: string, modalidade: string)

  /** The normalised labels the registry must carry, in the order the
      mapping lists them. */
  const RegistryColumns: seq<string> := ["registro_operadora", "razao_social", "cnpj", "uf", "modalidade"]

  /** Every field has been through `.astype(str).str.strip()`. */
  predicate FieldsStripped(x: RegistryRecord) {
    IsStripped(x.registroAns) && IsStripped(x.razaoSocial) && IsStripped(x.cnpj)
    && IsStripped(x.uf) && IsStripped(x.modalidade)
  }

  /** The field read from the first column carrying the given label. */
  function Field(labels: seq<string>, name: string, row: seq<Cell>): string
    requires name in labels
  {
    Strip(CellText(FirstColumn(labels, name, row)))
  }

  /** x is what a row yields under the given labels: each field is the
      trimmed text of the column the mapping renames to it. */
  predicate ReadFrom(labels: seq<string>, row: seq<Cell>, x: RegistryRecord)
    requires HasColumns(labels)
  {
    && x.registroAns == Field(labels, RegistryColumns[0], row)
    && x.razaoSocial == Field(labels, RegistryColumns[1], row)
    && x.cnpj == Field(labels, RegistryColumns[2], row)
    && x.uf == Field(labels, RegistryColumns[3], row)
    && x.modalidade == Field(labels, RegistryColumns[4], row)
  }

  predicate HasColumns(labels: seq<string>) {
    forall i :: 0 <= i < |RegistryColumns| ==> RegistryColumns[i] in labels
  }

  function RegistryRow(row: seq<Cell>, cols: seq<nat>): (x: RegistryRecord)
    requires |cols| == 5
    ensures FieldsStripped(x)
  {
    RegistryRecord(
      Strip(CellText(CellAt(row, cols[0]))),
      Strip(CellText(CellAt(row, cols[1]))),
      Strip(CellText(CellAt(row, cols[2]))),
      Strip(CellText(CellAt(row, cols[3]))),
      Strip(CellText(CellAt(row, cols[4]))))
  }

  /** The whole of read_cadop after the CSV is parsed: normalise the labels,
      require the five columns (the ValueError carries exactly the missing
      ones), then keep every row with its five fields trimmed. No row is
      dropped. */
  function ReadCadop(table: Table): (r: Result<seq<RegistryRecord>, set<string>>)
    ensures r.Err? <==> exists n :: n in RegistryColumns && n !in NormalizeHeader(table.header)
    ensures r.Err? ==> r.error == MissingNames(NormalizeHeader(table.header), RegistryColumns) && r.error != {}
    ensures r.Ok? ==> |r.value| == |table.rows|
    ensures r.Ok? ==> forall i :: 0 <= i < |table.rows| ==> FieldsStripped(r.value[i])
    ensures r.Ok? ==> HasColumns(NormalizeHeader(table.header))
    ensures r.Ok? ==> forall i :: 0 <= i < |table.rows| ==>
                        ReadFrom(NormalizeHeader(table.header), table.rows[i], r.value[i])
  {
    ReadLabelled(NormalizeHeader(table.header), table.rows)
  }

  /** read_cadop once the labels are normalised. */
  function ReadLabelled(labels: seq<string>, rows: seq<seq<Cell>>): (r: Result<seq<RegistryRecord>, set<string>>)
    ensures r.Err? <==> exists n :: n in RegistryColumns && n !in labels
    ensures r.Err? ==> r.error == MissingNames(labels, RegistryColumns) && r.error != {}
    ensures r.Ok? ==> |r.value| == |rows|
    ensures r.Ok? ==> forall i :: 0 <= i < |rows| ==> FieldsStripped(r.value[i])
    ensures r.Ok? ==> HasColumns(labels)
    ensures r.Ok? ==> forall i :: 0 <= i < |rows| ==> ReadFrom(labels, rows[i], r.value[i])
  {
    match SelectColumns(labels, RegistryColumns)
    case Err(missing) => Err(missing)
    case Ok(cols) =>
      RowsReadFrom(labels, cols, rows);
      Ok(RegistryRows(rows, cols))
  }

  function RegistryRows(rows: seq<seq<Cell>>, cols: seq<nat>): (r: seq<RegistryRecord>)
    requires |cols| == 5
    ensures |r| == |rows|
    ensures forall i :: 0 <= i < |rows| ==> r[i] == RegistryRow(rows[i], cols)
  {
    Map(row => RegistryRow(row, cols), rows)
  }

  lemma RowsReadFrom(labels: seq<string>, cols: seq<nat>, rows: seq<seq<Cell>>)
    requires SelectColumns(labels, RegistryColumns) == Ok(cols)
    ensures HasColumns(labels)
    ensures forall i :: 0 <= i < |rows| ==> ReadFrom(labels, rows[i], RegistryRows(rows, cols)[i])
  {
    FirstPositions(labels, cols);
    var r := RegistryRows(rows, cols);
    forall i | 0 <= i < |rows| ensures ReadFrom(labels, rows[i], r[i]) {
      RowReadFrom(labels, cols, rows[i]);
    }
  }

  lemma RowReadFrom(labels: seq<string>, cols: seq<nat>, row: seq<Cell>)
    requires SelectColumns(labels, RegistryColumns) == Ok(cols)
    ensures HasColumns(labels) && ReadFrom(labels, row, RegistryRow(row, cols))
  {
    FirstPositions(labels, cols);
    var x := RegistryRow(row, cols);
    assert x.registroAns == Strip(CellText(CellAt(row, cols[0])));
    assert x.razaoSocial == Strip(CellText(CellAt(row, cols[1])));
    assert x.cnpj == Strip(CellText(CellAt(row, cols[2])));
    assert x.uf == Strip(CellText(CellAt(row, cols[3])));
    assert x.modalidade == Strip(CellText(CellAt(row, cols[4])));
  }

  /** The positions SelectColumns finds are the ones FirstColumn reads. */
  lemma FirstPositions(labels: seq<string>, cols: seq<nat>)
    requires SelectColumns(labels, RegistryColumns) == Ok(cols)
    ensures HasColumns(labels)
    ensures forall row, i :: 0 <= i < 5 ==>
              CellAt(row, cols[i]) == FirstColumn(labels, RegistryColumns[i], row)
  {
    forall row, i | 0 <= i < 5
      ensures CellAt(row, cols[i]) == FirstColumn(labels, RegistryColumns[i], row)
    {
      FirstIsUnique(labels, RegistryColumns[i], cols[i], IndexOf(labels, RegistryColumns[i]).value);
    }
  }

  lemma FirstIsUnique(labels: seq<string>, name: string, j: nat, k: nat)
    requires j < |labels| && labels[j] == name && name !in labels[..j]
    requires k < |labels| && labels[k] == name && name !in labels[..k]
    ensures j == k
  {
  }

  // ---------------------------------------------------------------------------
  // Round trip
  // ---------------------------------------------------------------------------

  /** The cells of a registry row written from a record, in column order. */
  function RecordCells(x: RegistryRecord): seq<Cell> {
    [Some(x.registroAns), Some(x.razaoSocial), Some(x.cnpj), Some(x.uf), Some(x.modalidade)]
  }

  /** Reading a file written from records, under labels that normalise to
      the five names in order, gives the records back, provided their fields
      are already trimmed. */
  lemma ReadCadopRoundTrip(header: seq<string>, rs: seq<RegistryRecord>)
    requires NormalizeHeader(header) == RegistryColumns
    requires forall i :: 0 <= i < |rs| ==> FieldsStripped(rs[i])
    ensures ReadCadop(Table(header, Map(RecordCells, rs))) == Ok(rs)
  {
    SelfPositions();
    var cols := SelectColumns(RegistryColumns, RegistryColumns).value;
    RecordRows(rs, cols);
  }

  /** In order: position i holds column i. */
  predicate InOrder(cols: seq<nat>) {
    |cols| == 5 && forall i :: 0 <= i < 5 ==> cols[i] == i
  }

  /** Each name is found at its own position. */
  lemma SelfPositions()
    ensures SelectColumns(RegistryColumns, RegistryColumns).Ok?
    ensures InOrder(SelectColumns(RegistryColumns, RegistryColumns).value)
  {
    var names := RegistryColumns;
    var cols := SelectColumns(names, names).value;
    RegistryColumnsDistinct();
    forall i | 0 <= i < 5 ensures cols[i] == i {
      FirstIsUnique(names, names[i], cols[i], i);
    }
  }

  lemma RecordRows(rs: seq<RegistryRecord>, cols: seq<nat>)
    requires InOrder(cols)
    requires forall i :: 0 <= i < |rs| ==> FieldsStripped(rs[i])
    ensures RegistryRows(Map(RecordCells, rs), cols) == rs
  {
    var cells := Map(RecordCells, rs);
    var r := RegistryRows(cells, cols);
    forall i | 0 <= i < |rs| ensures r[i] == rs[i] {
      RecordRow(rs[i], cols);
    }
  }

  lemma RecordRow(x: RegistryRecord, cols: seq<nat>)
    requires InOrder(cols) && FieldsStripped(x)
    ensures RegistryRow(RecordCells(x), cols) == x
  {
    var cells := RecordCells(x);
    assert CellAt(cells, cols[0]) == Some(x.registroAns);
    assert CellAt(cells, cols[1]) == Some(x.razaoSocial);
    assert CellAt(cells, cols[2]) == Some(x.cnpj);
    assert CellAt(cells, cols[3]) == Some(x.uf);
    assert CellAt(cells, cols[4]) == Some(x.modalidade);
    StrippedIsFixpoint(x.registroAns);
    StrippedIsFixpoint(x.razaoSocial);
    StrippedIsFixpoint(x.cnpj);
    StrippedIsFixpoint(x.uf);
    StrippedIsFixpoint(x.modalidade);
  }

  /** The five names are pairwise different (their lengths already are). */
  lemma RegistryColumnsDistinct()
    ensures forall i, j :: 0 <= i < j < |RegistryColumns| ==> RegistryColumns[i] != RegistryColumns[j]
  {
    var c := RegistryColumns;
    assert |c[0]| == 18 && |c[1]| == 12 && |c[2]| == 4 && |c[3]| == 2 && |c[4]| == 10;
  }

  /** A file without the UF column is refused, naming only that column. */
  lemma MissingUfExample(header: seq<string>, rows: seq<seq<Cell>>)
    requires NormalizeHeader(header) == ["registro_operadora", "razao_social", "cnpj", "modalidade"]
    ensures ReadCadop(Table(header, rows)) == Err({"uf"})
  {
    var h := NormalizeHeader(header);
    assert "uf" !in h;
    assert MissingNames(h, RegistryColumns) == {"uf"};
  }
}

=== FILE: results.dfy ===
/** Optional values and success/failure results, used wherever the original
    program returns NaN/None or raises an exception. */
module Results {

  /** A value that may be absent: pandas' NaN, Python's None, or a parse that failed. */
  datatype Option<+T> = None | Some(value: T)

  /** The outcome of an operation that can raise. */
  datatype Result<+T, +E> = Ok(value: T) | Err(error: E)
}

=== FILE: scraper.dfy ===
/** api_ans/scraper.py: locating the accounting-statements directory on the
    open-data site, listing its year directories and quarterly archives, and
    choosing the three most recent quarters.

    The site is a value: each URL that can be fetched maps to the href
    attributes of the anchors on its page, in document order (None for an
    anchor without href). A URL that is not in the map is one whose fetch
    raises. URL resolution (urljoin) is a parameter. */
module Scraper {
  import opened Results
  import opened Text
  import opened Seqs
  import opened Utils

  /** Page contents by URL: the href attribute of each anchor, in order. */
  type Site = map<string, seq<Option<string>>>

  /** urljoin(base, href). */
  type Join = (string, string) -> string

  datatype ScrapeError =
    | FetchFailed(url: string)            // get_url raised
    | DisclosureDirMissing                // find_dir's RuntimeError
    | BadQuarter(name: string)            // extract_quarter raised while sorting

  // ---------------------------------------------------------------------------
  // Pages and links
  // ---------------------------------------------------------------------------

  /** extract_hrefs: the href of every anchor that has a non-empty one. */
  function ExtractHrefs(anchors: seq<Option<string>>): (r: seq<string>)
    ensures |r| <= |anchors|
    ensures forall h :: h in r <==> h != "" && Some(h) in anchors
  {
    if anchors == [] then []
    else
      var rest := ExtractHrefs(anchors[1..]);
      assert anchors == [anchors[0]] + anchors[1..];
      match anchors[0]
      case Some(h) =>
        if h != "" then [h] + rest else rest
      case None => rest
  }

  /** Each non-empty href is kept as often as the page carries it. */
  lemma {:induction false} HrefCount(anchors: seq<Option<string>>, h: string)
    requires h != ""
    ensures multiset(ExtractHrefs(anchors))[h] == multiset(anchors)[Some(h)]
  {
    if anchors != [] {
      var rest := ExtractHrefs(anchors[1..]);
      var kept := if anchors[0].Some? && anchors[0].value != "" then [anchors[0].value] else [];
      assert anchors == [anchors[0]] + anchors[1..];
      assert ExtractHrefs(anchors) == kept + rest;
      assert multiset(anchors)[Some(h)] == multiset{anchors[0]}[Some(h)] + multiset(anchors[1..])[Some(h)];
      assert multiset(kept + rest)[h] == multiset(kept)[h] + multiset(rest)[h];
      HrefCount(anchors[1..], h);
    }
  }

  /** The anchor a kept href came from. */
  function Linked(h: string): Option<string> {
    Some(h)
  }

  /** The hrefs keep page order: they come from a subsequence of the anchors. */
  lemma {:induction false} HrefsInPageOrder(anchors: seq<Option<string>>)
    ensures IsSubseq(Map(Linked, ExtractHrefs(anchors)), anchors)
  {
    if anchors != [] {
      var rest := ExtractHrefs(anchors[1..]);
      HrefsInPageOrder(anchors[1..]);
      if anchors[0].Some? && anchors[0].value != "" {
        var r := [anchors[0].value] + rest;
        assert ExtractHrefs(anchors) == r;
        assert r[1..] == rest;
        assert Map(Linked, r)[1..] == Map(Linked, rest);
      } else {
        assert ExtractHrefs(anchors) == rest;
        SubseqOfTail(Map(Linked, rest), anchors);
      }
    }
  }

  /** get_url followed by extract_hrefs. */
  function Fetch(site: Site, url: string): (r: Result<seq<string>, ScrapeError>)
    ensures r.Err? <==> url !in site
    ensures r.Err? ==> r.error == FetchFailed(url)
    ensures r.Ok? ==> r.value == ExtractHrefs(site[url])
  {
    if url in site then Ok(ExtractHrefs(site[url])) else Err(FetchFailed(url))
  }

  // ---------------------------------------------------------------------------
  // find_dir
  // ---------------------------------------------------------------------------

  /** The lower-cased name mentions both "demonstr" and "contab". */
  predicate IsDisclosureDir(href: string) {
    var name := Lower(href);
    Contains(name, "demonstr") && Contains(name, "contab")
  }

  /** The first link whose name matches, resolved against the base URL. */
  function FindDir(site: Site, baseUrl: string, join: Join): (r: Result<string, ScrapeError>)
    ensures baseUrl !in site ==> r == Err(FetchFailed(baseUrl))
    ensures baseUrl in site ==>
              var hrefs := ExtractHrefs(site[baseUrl]);
              && (r.Err? <==> forall i :: 0 <= i < |hrefs| ==> !IsDisclosureDir(hrefs[i]))
              && (r.Err? ==> r.error == DisclosureDirMissing)
              && (r.Ok? ==> exists i :: FirstIndex(IsDisclosureDir, hrefs, i) && r.value == join(baseUrl, hrefs[i]))
  {
    match Fetch(site, baseUrl)
    case Err(e) => Err(e)
    case Ok(hrefs) =>
      match FindFirst(IsDisclosureDir, hrefs)
      case None => Err(DisclosureDirMissing)
      case Some(i) =>
        assert FirstIndex(IsDisclosureDir, hrefs, i);
        Ok(join(baseUrl, hrefs[i]))
  }

  // ---------------------------------------------------------------------------
  // list_years and list_zip_files
  // ---------------------------------------------------------------------------

  /** str.isdigit on one character, within Latin-1: the ASCII digits and the
      superscripts one, two and three. */
  predicate IsPyDigitChar(c: char) {
    IsDigit(c) || c == '¹' || c == '²' || c == '³'
  }

  /** str.isdigit: non-empty and every character a digit. */
  predicate IsPyDigitString(s: string) {
    s != [] && forall i :: 0 <= i < |s| ==> IsPyDigitChar(s[i])
  }

  /** A year directory: the href ends with '/' and everything before it is digits. */
  predicate IsYearDir(href: string) {
    EndsWith(href, "/") && IsPyDigitString(href[..|href| - 1])
  }

  predicate IsZipName(href: string) {
    EndsWith(href, ".zip")
  }

  /** The year directories linked from the statements page, in page order. */
  function ListYears(site: Site, demoUrl: string): (r: Result<seq<string>, ScrapeError>)
    ensures r.Err? <==> demoUrl !in site
    ensures r.Ok? ==> forall h :: h in r.value <==> h in ExtractHrefs(site[demoUrl]) && IsYearDir(h)
    ensures r.Ok? ==> IsSubseq(r.value, ExtractHrefs(site[demoUrl]))
    ensures r.Ok? ==> forall h :: IsYearDir(h) ==> multiset(r.value)[h] == multiset(ExtractHrefs(site[demoUrl]))[h]
  {
    match Fetch(site, demoUrl)
    case Err(e) => Err(e)
    case Ok(hrefs) => Ok(Filter(IsYearDir, hrefs))
  }

  /** The archives linked from a year page, in page order. */
  function ListZipFiles(site: Site, yearUrl: string): (r: Result<seq<string>, ScrapeError>)
    ensures r.Err? <==> yearUrl !in site
    ensures r.Ok? ==> forall h :: h in r.value <==> h in ExtractHrefs(site[yearUrl]) && IsZipName(h)
    ensures r.Ok? ==> IsSubseq(r.value, ExtractHrefs(site[yearUrl]))
    ensures r.Ok? ==> forall h :: IsZipName(h) ==> multiset(r.value)[h] == multiset(ExtractHrefs(site[yearUrl]))[h]
  {
    match Fetch(site, yearUrl)
    case Err(e) => Err(e)
    case Ok(hrefs) => Ok(Filter(IsZipName, hrefs))
  }

  // ---------------------------------------------------------------------------
  // Ordering years and archives
  // ---------------------------------------------------------------------------

  /** sorted(..., reverse=True) on strings: a may precede b when a >= b. */
  predicate YearFirst(a: string, b: string) {
    StrLessEq(b, a)
  }

  lemma YearFirstTotalPreorder()
    ensures TotalPreorder(YearFirst)
  {
    forall a, b ensures YearFirst(a, b) || YearFirst(b, a) {
      StrLessTotal(a, b);
    }
    forall a, b, c | YearFirst(a, b) && YearFirst(b, c) ensures YearFirst(a, c) {
      if a != b && b != c {
        StrLessTransitive(c, b, a);
      }
    }
  }

  /** Years newest first. */
  function SortYears(years: seq<string>): (r: seq<string>)
    ensures multiset(r) == multiset(years)
  {
    SortBy(years, YearFirst)
  }

  /** An archive name together with the quarter its first character gives. */
  datatype Archive = Archive(name: string, quarter: int)

  /** zips.sort(key=extract_quarter): every key is computed first, so one
      name without a leading digit makes the whole sort raise. */
  function QuarterKeys(zips: seq<string>): (r: Result<seq<Archive>, ScrapeError>)
    ensures r.Err? <==> exists i :: 0 <= i < |zips| && ExtractQuarter(zips[i]).None?
    ensures r.Err? ==> exists i :: FirstIndex(NoQuarter, zips, i) && r.error == BadQuarter(zips[i])
    ensures r.Ok? ==> |r.value| == |zips|
    ensures r.Ok? ==> forall i :: 0 <= i < |zips| ==>
              r.value[i] == Archive(zips[i], ExtractQuarter(zips[i]).value)
  {
    match FindFirst(NoQuarter, zips)
    case Some(i) => Err(BadQuarter(zips[i]))
    case None => Ok(Map(ArchiveOf, zips))
  }

  /** A name paired with its quarter; only applied once every name has one. */
  function ArchiveOf(name: string): Archive {
    Archive(name, match ExtractQuarter(name) case Some(q) => q case None => 0)
  }

  predicate NoQuarter(name: string) {
    ExtractQuarter(name).None?
  }

  /** reverse=True on the quarter: a may precede b when its quarter is not smaller. */
  predicate QuarterFirst(a: Archive, b: Archive) {
    a.quarter >= b.quarter
  }

  lemma QuarterFirstTotalPreorder()
    ensures TotalPreorder(QuarterFirst)
  {
  }

  function ArchiveName(a: Archive): string {
    a.name
  }

  /** sorted is zips reordered newest quarter first, with the names of each
      quarter in their original order. */
  ghost predicate QuarterSortOf(zips: seq<string>, sorted: seq<string>) {
    && multiset(sorted) == multiset(zips)
    && (forall i :: 0 <= i < |sorted| ==> ExtractQuarter(sorted[i]).Some?)
    && (forall i, j :: 0 <= i < j < |sorted| ==>
          ExtractQuarter(sorted[i]).value >= ExtractQuarter(sorted[j]).value)
    && (forall q :: WithQuarter(sorted, q) == WithQuarter(zips, q))
  }

  /** The archive names of one year, newest quarter first; names with the
      same quarter keep their page order. */
  function SortByQuarter(zips: seq<string>): (r: Result<seq<string>, ScrapeError>)
    ensures r.Err? <==> exists i :: 0 <= i < |zips| && ExtractQuarter(zips[i]).None?
    ensures r.Ok? ==> QuarterSortOf(zips, r.value)
  {
    match QuarterKeys(zips)
    case Err(e) => Err(e)
    case Ok(keys) =>
      assert Map(ArchiveName, keys) == zips;
      SortedNames(keys);
      Ok(Map(ArchiveName, SortBy(keys, QuarterFirst)))
  }

  /** Sorting archives whose quarters match their names sorts the names. */
  lemma SortedNames(keys: seq<Archive>)
    requires KeysMatchNames(keys)
    ensures QuarterSortOf(Map(ArchiveName, keys), Map(ArchiveName, SortBy(keys, QuarterFirst)))
  {
    SortMapped(ArchiveName, keys, QuarterFirst);
    SortedNamesNewestFirst(keys);
    SortedNamesStable(keys);
  }

  // ---------------------------------------------------------------------------
  // find_last_three_quarters
  // ---------------------------------------------------------------------------

  /** How many archive URLs the selection stops at. */
  const Wanted: nat := 3

  /** One year's archive URLs in the order the loop visits them: the year
      page is fetched, its archives sorted newest quarter first, and each
      name resolved against the year URL. */
  function YearUrls(site: Site, demoUrl: string, join: Join, year: string): (r: Result<seq<string>, ScrapeError>)
    ensures join(demoUrl, year) !in site ==> r == Err(FetchFailed(join(demoUrl, year)))
  {
    var yearUrl := join(demoUrl, year);
    match ListZipFiles(site, yearUrl)
    case Err(e) => Err(e)
    case Ok(zips) =>
      match SortByQuarter(zips)
      case Err(e) => Err(e)
      case Ok(sorted) => Ok(ResolveAll(join, yearUrl, sorted))
  }

  /** urljoin(base, name) for each name, in order. */
  function ResolveAll(join: Join, base: string, names: seq<string>): (r: seq<string>)
    ensures |r| == |names|
    ensures forall i :: 0 <= i < |names| ==> r[i] == join(base, names[i])
  {
    if names == [] then [] else [join(base, names[0])] + ResolveAll(join, base, names[1..])
  }

  /** The body of the outer loop up to the inner loop: resolve the year,
      list its archives and sort them newest quarter first. */
  method VisitYear(site: Site, demoUrl: string, join: Join, year: string)
    returns (yearUrl: string, sorted: Result<seq<string>, ScrapeError>)
    ensures yearUrl == join(demoUrl, year)
    ensures sorted.Err? ==> YearUrls(site, demoUrl, join, year) == Err(sorted.error)
    ensures sorted.Ok? ==> YearUrls(site, demoUrl, join, year) == Ok(ResolveAll(join, yearUrl, sorted.value))
    ensures sorted.Err? <==> yearUrl !in site || exists i :: 0 <= i < |ListZipFiles(site, yearUrl).value| && ExtractQuarter(ListZipFiles(site, yearUrl).value[i]).None?
    ensures sorted.Ok? ==> ListZipFiles(site, yearUrl).Ok? && QuarterSortOf(ListZipFiles(site, yearUrl).value, sorted.value)
  {
    yearUrl := join(demoUrl, year);
    var zips := ListZipFiles(site, yearUrl);
    if zips.Err? {
      return yearUrl, Err(zips.error);
    }
    sorted := SortByQuarter(zips.value);
  }

  /** The selection loop over the outcomes of visiting each year in turn,
      with `selected` already chosen. It stops as soon as Wanted URLs are
      selected, so the outcome of a later year never matters: such a year
      is not fetched. */
  function Gather(outcomes: seq<Result<seq<string>, ScrapeError>>, selected: seq<string>): (r: Result<seq<string>, ScrapeError>)
    requires |selected| < Wanted
    ensures r.Ok? ==> |selected| <= |r.value| <= Wanted && r.value[..|selected|] == selected
  {
    if outcomes == [] then Ok(selected)
    else match outcomes[0]
      case Err(e) => Err(e)
      case Ok(urls) =>
        if |selected| + |urls| >= Wanted then Ok(selected + urls[..Wanted - |selected|])
        else Gather(outcomes[1..], selected + urls)
  }

  /** What visiting each year yields, in visiting order. */
  function YearOutcomes(site: Site, demoUrl: string, join: Join, years: seq<string>): (r: seq<Result<seq<string>, ScrapeError>>)
    ensures |r| == |years|
    ensures forall i :: 0 <= i < |years| ==> r[i] == YearUrls(site, demoUrl, join, years[i])
  {
    Map(year => YearUrls(site, demoUrl, join, year), years)
  }

  /** find_last_three_quarters: the years newest first, then the loop. */
  function LastThreeQuarters(site: Site, demoUrl: string, join: Join): (r: Result<seq<string>, ScrapeError>)
    ensures demoUrl !in site ==> r == Err(FetchFailed(demoUrl))
    ensures r.Ok? ==> |r.value| <= Wanted
  {
    match ListYears(site, demoUrl)
    case Err(e) => Err(e)
    case Ok(years) => Gather(YearOutcomes(site, demoUrl, join, SortYears(years)), [])
  }

  /** The inner loop: append each resolved archive URL, stopping once
      Wanted URLs are selected. */
  method SelectFrom(join: Join, yearUrl: string, zips: seq<string>, selected: seq<string>)
    returns (chosen: seq<string>, full: bool)
    requires |selected| < Wanted
    ensures var urls := ResolveAll(join, yearUrl, zips);
            && (full <==> |selected| + |urls| >= Wanted)
            && (full ==> chosen == selected + urls[..Wanted - |selected|])
            && (!full ==> chosen == selected + urls)
  {
    ghost var urls := ResolveAll(join, yearUrl, zips);
    chosen := selected;
    var j := 0;
    while j < |zips|
      invariant 0 <= j <= |zips|
      invariant chosen == selected + urls[..j]
      invariant |chosen| < Wanted
    {
      chosen := chosen + [join(yearUrl, zips[j])];
      AppendNext(selected, urls, j);
      if |chosen| == Wanted {
        return chosen, true;
      }
      j := j + 1;
    }
    assert urls[..j] == urls;
    return chosen, false;
  }

  /** The loops of find_last_three_quarters, returning from inside the
      inner loop once three URLs are selected. */
  method FindLastThreeQuarters(site: Site, demoUrl: string, join: Join) returns (r: Result<seq<string>, ScrapeError>)
    ensures r == LastThreeQuarters(site, demoUrl, join)
    ensures r.Ok? ==> |r.value| <= Wanted
  {
    var listed := ListYears(site, demoUrl);
    if listed.Err? {
      return Err(listed.error);
    }
    var years := SortYears(listed.value);
    r := VisitYears(site, demoUrl, join, years);
  }

  /** The outer loop over the years, newest first. */
  method VisitYears(site: Site, demoUrl: string, join: Join, years: seq<string>) returns (r: Result<seq<string>, ScrapeError>)
    ensures r == Gather(YearOutcomes(site, demoUrl, join, years), [])
  {
    ghost var outcomes := YearOutcomes(site, demoUrl, join, years);
    var selected: seq<string> := [];
    var i := 0;
    while i < |years|
      invariant 0 <= i <= |years|
      invariant |selected| < Wanted
      invariant Gather(outcomes, []) == Gather(outcomes[i..], selected)
    {
      var yearUrl, sorted := VisitYear(site, demoUrl, join, years[i]);
      assert outcomes[i..][0] == outcomes[i];
      if sorted.Err? {
        return Err(sorted.error);
      }
      var full;
      selected, full := SelectFrom(join, yearUrl, sorted.value, selected);
      if full {
        return Ok(selected);
      }
      assert outcomes[i..][1..] == outcomes[i + 1..];
      i := i + 1;
    }
    assert outcomes[i..] == [];
    return Ok(selected);
  }

  // ---------------------------------------------------------------------------
  // Properties of the selection
  // ---------------------------------------------------------------------------

  /** Every year's URLs, newest year first, or the first failure. */
  function AllUrls(outcomes: seq<Result<seq<string>, ScrapeError>>): Result<seq<string>, ScrapeError> {
    if outcomes == [] then Ok([])
    else match outcomes[0]
      case Err(e) => Err(e)
      case Ok(urls) =>
        match AllUrls(outcomes[1..])
        case Err(e) => Err(e)
        case Ok(rest) => Ok(urls + rest)
  }

  /** When every visited year can be read, the selection is the first three
      URLs of all years taken together, or all of them if there are fewer. */
  lemma {:induction false} GatherTakesFirst(outcomes: seq<Result<seq<string>, ScrapeError>>, selected: seq<string>, all: seq<string>)
    requires |selected| < Wanted && AllUrls(outcomes) == Ok(all)
    ensures Gather(outcomes, selected) == Ok(Take(selected + all, Wanted))
  {
    if outcomes == [] {
      assert selected + all == selected;
    } else {
      match outcomes[0]
      case Ok(urls) =>
        var rest := AllUrls(outcomes[1..]).value;
        assert all == urls + rest;
        if |selected| + |urls| >= Wanted {
          TakeAcross(selected, urls, rest);
        } else {
          GatherTakesFirst(outcomes[1..], selected + urls, rest);
          assert selected + urls + rest == selected + all;
        }
    }
  }

  /** Taking Wanted elements stops inside urls once selected and urls reach it. */
  lemma TakeAcross(selected: seq<string>, urls: seq<string>, rest: seq<string>)
    requires |selected| < Wanted <= |selected| + |urls|
    ensures Take(selected + (urls + rest), Wanted) == selected + urls[..Wanted - |selected|]
  {
    assert (selected + (urls + rest))[..Wanted] == selected + urls[..Wanted - |selected|];
  }

  /** Once the years visited so far supply three URLs, later years are never
      looked at: whatever they hold, even a fetch failure, the result is the same. */
  lemma {:induction false} GatherIgnoresLater(outcomes: seq<Result<seq<string>, ScrapeError>>, later: seq<Result<seq<string>, ScrapeError>>, selected: seq<string>, found: seq<string>)
    requires |selected| < Wanted && AllUrls(outcomes) == Ok(found) && |selected| + |found| >= Wanted
    ensures Gather(outcomes + later, selected) == Gather(outcomes, selected)
  {
    assert outcomes != [];
    assert (outcomes + later)[0] == outcomes[0];
    var urls := outcomes[0].value;
    if |selected| + |urls| < Wanted {
      assert (outcomes + later)[1..] == outcomes[1..] + later;
      GatherIgnoresLater(outcomes[1..], later, selected + urls, AllUrls(outcomes[1..]).value);
    }
  }

  /** A failure is reported only if some year's visit failed with it. */
  lemma {:induction false} GatherErrorFromYear(outcomes: seq<Result<seq<string>, ScrapeError>>, selected: seq<string>)
    requires |selected| < Wanted && Gather(outcomes, selected).Err?
    ensures exists i :: 0 <= i < |outcomes| && outcomes[i] == Err(Gather(outcomes, selected).error)
  {
    if outcomes[0].Ok? {
      GatherErrorFromYear(outcomes[1..], selected + outcomes[0].value);
      var i :| 0 <= i < |outcomes[1..]| && outcomes[1..][i] == Err(Gather(outcomes, selected).error);
      assert outcomes[i + 1] == outcomes[1..][i];
    } else {
      assert outcomes[0] == Err(Gather(outcomes, selected).error);
    }
  }

  /** Years are visited newest first. */
  lemma SortYearsNewestFirst(years: seq<string>)
    ensures SortedBy(SortYears(years), YearFirst)
  {
    YearFirstTotalPreorder();
    SortSorted(years, YearFirst);
  }

  /** For year directories written with the same number of ASCII digits,
      the string order used by the sort is the numeric order of the years. */
  lemma YearDirOrder(a: string, b: string)
    requires IsYearDir(a) && IsYearDir(b) && |a| == |b|
    requires AllDigits(a[..|a| - 1]) && AllDigits(b[..|b| - 1])
    ensures YearFirst(a, b) <==> DigitsValue(a[..|a| - 1]) >= DigitsValue(b[..|b| - 1])
  {
    var da, db := a[..|a| - 1], b[..|b| - 1];
    assert a == da + "/" && b == db + "/";
    StrLessCommonSuffix(db, da, "/");
    DigitStringOrder(db, da);
  }

  /** Each archive carries the quarter its own name gives. */
  ghost predicate KeysMatchNames(keys: seq<Archive>) {
    forall i :: 0 <= i < |keys| ==> ExtractQuarter(keys[i].name) == Some(keys[i].quarter)
  }

  lemma SortedKeysMatchNames(keys: seq<Archive>)
    requires KeysMatchNames(keys)
    ensures KeysMatchNames(SortBy(keys, QuarterFirst))
  {
    var sorted := SortBy(keys, QuarterFirst);
    forall i | 0 <= i < |sorted| ensures ExtractQuarter(sorted[i].name) == Some(sorted[i].quarter) {
      assert sorted[i] in multiset(keys);
      var k :| 0 <= k < |keys| && keys[k] == sorted[i];
    }
  }

  /** Sorting archives whose quarters match their names puts the names
      newest quarter first. */
  lemma SortedNamesNewestFirst(keys: seq<Archive>)
    requires KeysMatchNames(keys)
    ensures var r := Map(ArchiveName, SortBy(keys, QuarterFirst));
            && (forall i :: 0 <= i < |r| ==> ExtractQuarter(r[i]).Some?)
            && (forall i, j :: 0 <= i < j < |r| ==> ExtractQuarter(r[i]).value >= ExtractQuarter(r[j]).value)
  {
    var sorted := SortBy(keys, QuarterFirst);
    QuarterFirstTotalPreorder();
    SortSorted(keys, QuarterFirst);
    SortedKeysMatchNames(keys);
  }

  /** The names among `names` whose leading digit is q, in order. */
  function WithQuarter(names: seq<string>, q: int): seq<string> {
    if names == [] then []
    else if ExtractQuarter(names[0]) == Some(q) then [names[0]] + WithQuarter(names[1..], q)
    else WithQuarter(names[1..], q)
  }

  lemma {:induction false} PeerNames(keys: seq<Archive>, q: int)
    requires KeysMatchNames(keys)
    ensures Map(ArchiveName, Peers(keys, Archive("", q), QuarterFirst)) == WithQuarter(Map(ArchiveName, keys), q)
  {
    if keys != [] {
      var k, e := keys[0], Archive("", q);
      var names := Map(ArchiveName, keys);
      var rest := Peers(keys[1..], e, QuarterFirst);
      assert names[1..] == Map(ArchiveName, keys[1..]);
      assert KeysMatchNames(keys[1..]) by {
        forall i | 0 <= i < |keys[1..]| ensures ExtractQuarter(keys[1..][i].name) == Some(keys[1..][i].quarter) {
          assert keys[1..][i] == keys[i + 1];
        }
      }
      PeerNames(keys[1..], q);
      assert names[0] == k.name && ExtractQuarter(names[0]) == Some(k.quarter);
      assert Tied(k, e, QuarterFirst) <==> k.quarter == q;
      if k.quarter == q {
        assert Peers(keys, e, QuarterFirst) == [k] + rest;
        assert WithQuarter(names, q) == [names[0]] + WithQuarter(names[1..], q);
        MapAppend(ArchiveName, [k], rest);
      } else {
        assert Peers(keys, e, QuarterFirst) == rest;
        assert WithQuarter(names, q) == WithQuarter(names[1..], q);
      }
    }
  }

  /** Archives of the same quarter keep their order on the page: Python's
      sort is stable, also with reverse=True. */
  lemma SortedNamesStable(keys: seq<Archive>)
    requires KeysMatchNames(keys)
    ensures forall q :: WithQuarter(Map(ArchiveName, SortBy(keys, QuarterFirst)), q) == WithQuarter(Map(ArchiveName, keys), q)
  {
    var sorted := SortBy(keys, QuarterFirst);
    QuarterFirstTotalPreorder();
    SortedKeysMatchNames(keys);
    forall q ensures WithQuarter(Map(ArchiveName, sorted), q) == WithQuarter(Map(ArchiveName, keys), q) {
      SortStable(keys, Archive("", q), QuarterFirst);
      PeerNames(keys, q);
      PeerNames(sorted, q);
    }
  }
}

=== FILE: seqs.dfy ===
/** Sequence operations shared by every stage: filtering in order (a list
    comprehension with a condition), flattening (concatenating tables), and
    Python's stable sort with an arbitrary "may come first" relation. */
module Seqs {
  import opened Results

  // ---------------------------------------------------------------------------
  // Subsequences and filtering
  // ---------------------------------------------------------------------------

  /** a can be obtained from b by deleting elements (order is kept). */
  predicate IsSubseq<T(==)>(a: seq<T>, b: seq<T>)
    decreases |b|
  {
    a == [] || (b != [] && if a[0] == b[0] then IsSubseq(a[1..], b[1..]) else IsSubseq(a, b[1..]))
  }

  lemma {:induction false} SubseqOfTail<T>(a: seq<T>, b: seq<T>)
    requires b != [] && IsSubseq(a, b[1..])
    ensures IsSubseq(a, b)
    decreases |b|, 1
  {
    if a != [] && a[0] == b[0] {
      SubseqDropHead(a, b[1..]);
    }
  }

  lemma {:induction false} SubseqDropHead<T>(a: seq<T>, c: seq<T>)
    requires a != [] && IsSubseq(a, c)
    ensures IsSubseq(a[1..], c)
    decreases |c| + 1, 0
  {
    if a[0] == c[0] {
      SubseqOfTail(a[1..], c);
    } else {
      SubseqDropHead(a, c[1..]);
      SubseqOfTail(a[1..], c);
    }
  }

  /** The elements of s that satisfy p, in their original order. */
  function Filter<T(==,!new)>(p: T -> bool, s: seq<T>): (r: seq<T>)
    ensures |r| <= |s|
    ensures forall x :: x in r <==> x in s && p(x)
    ensures forall x :: p(x) ==> multiset(r)[x] == multiset(s)[x]
    ensures IsSubseq(r, s)
  {
    if s == [] then []
    else
      var rest := Filter(p, s[1..]);
      assert s == [s[0]] + s[1..];
      if p(s[0]) then
        assert ([s[0]] + rest)[1..] == rest;
        [s[0]] + rest
      else
        SubseqOfTail(rest, s);
        rest
  }

  lemma {:induction false} FilterAppend<T(!new)>(p: T -> bool, a: seq<T>, b: seq<T>)
    ensures Filter(p, a + b) == Filter(p, a) + Filter(p, b)
  {
    if a == [] {
      assert a + b == b;
    } else {
      assert (a + b)[1..] == a[1..] + b;
      FilterAppend(p, a[1..], b);
    }
  }

  /** f applied to every element, in order. */
  function Map<A, B>(f: A -> B, s: seq<A>): (r: seq<B>)
    ensures |r| == |s|
    ensures forall i :: 0 <= i < |s| ==> r[i] == f(s[i])
  {
    if s == [] then [] else [f(s[0])] + Map(f, s[1..])
  }

  lemma {:induction false} MapAppend<A, B>(f: A -> B, a: seq<A>, b: seq<A>)
    ensures Map(f, a + b) == Map(f, a) + Map(f, b)
  {
    var l, r := Map(f, a + b), Map(f, a) + Map(f, b);
    assert |l| == |r|;
    forall i | 0 <= i < |l| ensures l[i] == r[i] {
      if i < |a| { assert (a + b)[i] == a[i]; } else { assert (a + b)[i] == b[i - |a|]; }
    }
  }

  /** Extending a prefix of s by its next element. */
  lemma AppendNext<T>(a: seq<T>, s: seq<T>, j: nat)
    requires j < |s|
    ensures a + s[..j] + [s[j]] == a + s[..j + 1]
  {
    assert s[..j + 1] == s[..j] + [s[j]];
  }

  /** At most the first n elements. */
  function Take<T>(s: seq<T>, n: nat): (r: seq<T>)
    ensures |r| == if |s| <= n then |s| else n
    ensures r == s[..|r|]
  {
    if |s| <= n then s else s[..n]
  }

  /** Python's s.index(x) / str.find: the first position holding x. */
  function IndexOf<T(==)>(s: seq<T>, x: T): (r: Option<nat>)
    ensures r.None? <==> x !in s
    ensures r.Some? ==> r.value < |s| && s[r.value] == x && x !in s[..r.value]
  {
    if s == [] then None
    else if s[0] == x then Some(0)
    else match IndexOf(s[1..], x)
      case None => None
      case Some(k) =>
        assert s[..k + 1] == [s[0]] + s[1..][..k];
        Some(k + 1)
  }

  /** i is the position of the first element satisfying p. */
  predicate FirstIndex<T>(p: T -> bool, s: seq<T>, i: int) {
    0 <= i < |s| && p(s[i]) && forall j :: 0 <= j < i ==> !p(s[j])
  }

  /** The position of the first element satisfying p, if any: a loop over s
      that returns at the first hit. */
  function FindFirst<T>(p: T -> bool, s: seq<T>): (r: Option<nat>)
    ensures r.None? <==> forall i :: 0 <= i < |s| ==> !p(s[i])
    ensures r.Some? ==> FirstIndex(p, s, r.value)
  {
    if s == [] then None
    else if p(s[0]) then Some(0)
    else match FindFirst(p, s[1..])
      case None => None
      case Some(k) =>
        assert forall j :: 1 <= j < k + 1 ==> s[j] == s[1..][j - 1];
        Some(k + 1)
  }

  /** The present results of f over s, in order. */
  function Choose<A, B>(f: A -> Option<B>, s: seq<A>): (r: seq<B>)
    ensures |r| <= |s|
    ensures forall i :: 0 <= i < |s| && f(s[i]).Some? ==> f(s[i]).value in r
  {
    if s == [] then []
    else
      var rest := Choose(f, s[1..]);
      assert forall i :: 1 <= i < |s| ==> s[i] == s[1..][i - 1];
      match f(s[0])
      case None => rest
      case Some(y) => [y] + rest
  }

  lemma {:induction false} ChooseAppend<A, B>(f: A -> Option<B>, a: seq<A>, b: seq<A>)
    ensures Choose(f, a + b) == Choose(f, a) + Choose(f, b)
  {
    if a == [] {
      assert a + b == b;
    } else {
      assert (a + b)[1..] == a[1..] + b;
      ChooseAppend(f, a[1..], b);
    }
  }

  /** Every chosen value is the result of f on some element. */
  lemma {:induction false} ChooseFrom<A, B>(f: A -> Option<B>, s: seq<A>, y: B)
    requires y in Choose(f, s)
    ensures exists i :: 0 <= i < |s| && f(s[i]) == Some(y)
  {
    if f(s[0]).None? || f(s[0]).value != y {
      ChooseFrom(f, s[1..], y);
      var i :| 0 <= i < |s[1..]| && f(s[1..][i]) == Some(y);
      assert s[i + 1] == s[1..][i];
    }
  }

  // ---------------------------------------------------------------------------
  // Flattening
  // ---------------------------------------------------------------------------

  /** The concatenation of the parts, in order. */
  function Flatten<T>(parts: seq<seq<T>>): seq<T> {
    if parts == [] then [] else parts[0] + Flatten(parts[1..])
  }

  lemma {:induction false} FlattenAppend<T>(a: seq<seq<T>>, b: seq<seq<T>>)
    ensures Flatten(a + b) == Flatten(a) + Flatten(b)
  {
    if a == [] {
      assert a + b == b;
    } else {
      assert (a + b)[1..] == a[1..] + b;
      FlattenAppend(a[1..], b);
    }
  }

  // ---------------------------------------------------------------------------
  // Stable sorting
  // ---------------------------------------------------------------------------

  /** before(a, b): a may be placed ahead of b. A sort key with
      `reverse=True` gives before(a, b) == key(a) >= key(b). */
  ghost predicate TotalPreorder<T(!new)>(before: (T, T) -> bool) {
    && (forall a, b :: before(a, b) || before(b, a))
    && (forall a, b, c :: before(a, b) && before(b, c) ==> before(a, c))
  }

  ghost predicate SortedBy<T>(s: seq<T>, before: (T, T) -> bool) {
    forall i, j :: 0 <= i < j < |s| ==> before(s[i], s[j])
  }

  /** a and b tie: neither must come strictly first. */
  predicate Tied<T>(a: T, b: T, before: (T, T) -> bool) {
    before(a, b) && before(b, a)
  }

  /** The elements of s that tie with e, in their order in s. */
  function Peers<T>(s: seq<T>, e: T, before: (T, T) -> bool): seq<T> {
    if s == [] then []
    else (if Tied(s[0], e, before) then [s[0]] else []) + Peers(s[1..], e, before)
  }

  /** Places x ahead of the first element it may precede. */
  function Insert<T>(x: T, s: seq<T>, before: (T, T) -> bool): (r: seq<T>)
    ensures multiset(r) == multiset(s) + multiset{x}
  {
    if s == [] || before(x, s[0]) then [x] + s
    else
      assert s == [s[0]] + s[1..];
      [s[0]] + Insert(x, s[1..], before)
  }

  /** Python's stable list sort: insertion from the back, so an element
      that came first in s stays ahead of every element it ties with. */
  function SortBy<T>(s: seq<T>, before: (T, T) -> bool): (r: seq<T>)
    ensures multiset(r) == multiset(s)
  {
    if s == [] then []
    else
      assert s == [s[0]] + s[1..];
      Insert(s[0], SortBy(s[1..], before), before)
  }

  lemma {:induction false} InsertSorted<T(!new)>(x: T, s: seq<T>, before: (T, T) -> bool)
    requires TotalPreorder(before) && SortedBy(s, before)
    ensures SortedBy(Insert(x, s, before), before)
  {
    if s == [] || before(x, s[0]) {
    } else {
      var t := s[1..];
      InsertSorted(x, t, before);
      var r := Insert(x, t, before);
      assert before(s[0], x);
      forall y | y in r ensures before(s[0], y) {
        assert y in multiset(r);
        if y != x {
          assert y in t;
        }
      }
      assert [s[0]] + r == Insert(x, s, before);
    }
  }

  lemma {:induction false} SortSorted<T(!new)>(s: seq<T>, before: (T, T) -> bool)
    requires TotalPreorder(before)
    ensures SortedBy(SortBy(s, before), before)
  {
    if s != [] {
      SortSorted(s[1..], before);
      InsertSorted(s[0], SortBy(s[1..], before), before);
    }
  }

  lemma {:induction false} InsertKeepsPeers<T(!new)>(x: T, s: seq<T>, e: T, before: (T, T) -> bool)
    requires TotalPreorder(before) && SortedBy(s, before)
    ensures Peers(Insert(x, s, before), e, before)
         == (if Tied(x, e, before) then [x] else []) + Peers(s, e, before)
  {
    if s == [] || before(x, s[0]) {
      assert ([x] + s)[1..] == s;
    } else {
      InsertKeepsPeers(x, s[1..], e, before);
      InsertBehindPeers(x, s, e, before);
    }
  }

  /** x goes behind the head of s, which it does not tie with. */
  lemma InsertBehindPeers<T(!new)>(x: T, s: seq<T>, e: T, before: (T, T) -> bool)
    requires TotalPreorder(before) && s != [] && !before(x, s[0])
    requires Peers(Insert(x, s[1..], before), e, before)
          == (if Tied(x, e, before) then [x] else []) + Peers(s[1..], e, before)
    ensures Peers(Insert(x, s, before), e, before)
         == (if Tied(x, e, before) then [x] else []) + Peers(s, e, before)
  {
    var r := Insert(x, s[1..], before);
    var head := if Tied(s[0], e, before) then [s[0]] else [];
    assert ([s[0]] + r)[1..] == r;
    assert Peers(Insert(x, s, before), e, before) == head + Peers(r, e, before);
    assert Peers(s, e, before) == head + Peers(s[1..], e, before);
    var tie := if Tied(x, e, before) then [x] else [];
    if Tied(x, e, before) {
      assert !Tied(s[0], e, before);
      assert head == [];
      assert Peers(Insert(x, s, before), e, before) == tie + Peers(s[1..], e, before);
      assert Peers(s, e, before) == Peers(s[1..], e, before);
    } else {
      assert tie == [];
      assert Peers(r, e, before) == Peers(s[1..], e, before);
      assert Peers(Insert(x, s, before), e, before) == Peers(s, e, before);
      assert tie + Peers(s, e, before) == Peers(s, e, before);
    }
  }

  /** Sorting keeps the relative order of tied elements. */
  lemma {:induction false} SortStable<T(!new)>(s: seq<T>, e: T, before: (T, T) -> bool)
    requires TotalPreorder(before)
    ensures Peers(SortBy(s, before), e, before) == Peers(s, e, before)
  {
    if s != [] {
      SortStable(s[1..], e, before);
      SortSorted(s[1..], before);
      InsertKeepsPeers(s[0], SortBy(s[1..], before), e, before);
    }
  }

  lemma {:induction false} InsertMapped<T, U>(f: T -> U, x: T, s: seq<T>, before: (T, T) -> bool)
    ensures multiset(Map(f, Insert(x, s, before))) == multiset(Map(f, s)) + multiset{f(x)}
  {
    if s == [] || before(x, s[0]) {
      assert Map(f, [x] + s) == [f(x)] + Map(f, s);
    } else {
      InsertMapped(f, x, s[1..], before);
      assert Map(f, [s[0]] + Insert(x, s[1..], before)) == [f(s[0])] + Map(f, Insert(x, s[1..], before));
      assert Map(f, s) == [f(s[0])] + Map(f, s[1..]);
    }
  }

  /** Sorting permutes any projection of the elements as well. */
  lemma {:induction false} SortMapped<T, U>(f: T -> U, s: seq<T>, before: (T, T) -> bool)
    ensures multiset(Map(f, SortBy(s, before))) == multiset(Map(f, s))
  {
    if s != [] {
      SortMapped(f, s[1..], before);
      InsertMapped(f, s[0], SortBy(s[1..], before), before);
      assert Map(f, s) == [f(s[0])] + Map(f, s[1..]);
    }
  }
}

=== FILE: tables.dfy ===
/** The part of a pandas DataFrame read from a ';'-separated CSV that the
    transformation relies on: a header of column labels and rows of cells,
    with the label normalisation and required-column check that
    api_ans/transformer.py applies to both of its input files. */
module Tables {
  import opened Results
  import opened Text
  import opened Seqs

  /** One field as read_csv leaves it: None is a missing value (NaN). */
  type Cell = Option<string>

  datatype Table = Table(header: seq<string>, rows: seq<seq<Cell>>)

  /** astype(str): a missing value becomes the text "nan". */
  function CellText(c: Cell): (t: string)
    ensures c.Some? ==> t == c.value
    ensures c.None? ==> t == "nan"
  {
    match c
    case None => "nan"
    case Some(s) => s
  }

  /** The k-th field of a row; read_csv fills a short row with missing values. */
  function CellAt(row: seq<Cell>, k: nat): (c: Cell)
    ensures k < |row| ==> c == row[k]
    ensures k >= |row| ==> c == None
  {
    if k < |row| then row[k] else None
  }

  /** `.str.strip().str.lower()` on one column label. */
  function NormalizeLabel(raw: string): (r: string)
    ensures |r| <= |raw|
    ensures IsStripped(r)
    ensures |r| == |Strip(raw)| && forall i :: 0 <= i < |r| ==> r[i] == LowerChar(Strip(raw)[i])
  {
    var s := Strip(raw);
    LowerKeepsStripped(s);
    Lower(s)
  }

  lemma LowerKeepsStripped(s: string)
    requires IsStripped(s)
    ensures IsStripped(Lower(s))
  {
    var l := Lower(s);
    if s != [] {
      LowerKeepsSpace(s[0]);
      LowerKeepsSpace(s[|s| - 1]);
    }
  }

  /** Lower-casing never turns a non-space character into a space. */
  lemma LowerKeepsSpace(c: char)
    ensures IsSpace(LowerChar(c)) ==> IsSpace(c)
  {
  }

  function NormalizeHeader(header: seq<string>): (r: seq<string>)
    ensures |r| == |header|
    ensures forall i :: 0 <= i < |header| ==> r[i] == NormalizeLabel(header[i])
  {
    Map(NormalizeLabel, header)
  }

  /** The required names that no label carries. */
  function MissingNames(labels: seq<string>, names: seq<string>): set<string> {
    set n | n in names && n !in labels
  }

  /** `df[list(mapping.keys())]` after the check `set(mapping) - set(df.columns)`:
      the position of each required name among the labels, or exactly the
      set of names that are missing. A name carried by several labels is
      read from the first of them. */
  function SelectColumns(labels: seq<string>, names: seq<string>): (r: Result<seq<nat>, set<string>>)
    ensures r.Err? <==> exists n :: n in names && n !in labels
    ensures r.Err? ==> r.error == MissingNames(labels, names) && r.error != {}
    ensures r.Ok? ==> |r.value| == |names|
    ensures r.Ok? ==> forall i :: 0 <= i < |names| ==>
              r.value[i] < |labels| && labels[r.value[i]] == names[i] && names[i] !in labels[..r.value[i]]
  {
    var missing := MissingNames(labels, names);
    if missing != {} then
      Err(missing)
    else
      assert forall n :: n in names ==> n in labels by {
        forall n | n in names ensures n in labels || n in missing {
        }
      }
      Ok(Positions(labels, names))
  }

  /** The cell a row holds under the first label equal to name. */
  function FirstColumn(labels: seq<string>, name: string, row: seq<Cell>): (c: Cell)
    requires name in labels
    ensures exists k :: 0 <= k < |labels| && labels[k] == name && name !in labels[..k] && c == CellAt(row, k)
  {
    var k := IndexOf(labels, name).value;
    CellAt(row, k)
  }

  /** The first position of each name among the labels. */
  function Positions(labels: seq<string>, names: seq<string>): (r: seq<nat>)
    requires forall n :: n in names ==> n in labels
    ensures |r| == |names|
    ensures forall i :: 0 <= i < |names| ==>
              r[i] < |labels| && labels[r[i]] == names[i] && names[i] !in labels[..r[i]]
  {
    if names == [] then []
    else
      assert names[0] in names;
      [IndexOf(labels, names[0]).value] + Positions(labels, names[1..])
  }
}

=== FILE: text.dfy ===
/** The string primitives the pipeline is built from, stated as Python
    evaluates them on text decoded as Latin-1 (every CSV is read with that
    encoding): whitespace stripping, lower-casing, substring tests,
    one-character replacement, int() and the plain decimal grammar that
    pandas' to_numeric accepts, and string ordering. */
module Text {
  import opened Results
  import opened Seqs

  // ---------------------------------------------------------------------------
  // Characters
  // ---------------------------------------------------------------------------

  /** Python's str.isspace() on the Latin-1 range: \t \n \v \f \r, the four
      information separators, space, NEL and no-break space. */
  predicate IsSpace(c: char) {
    var n := c as int;
    (0x09 <= n <= 0x0D) || (0x1C <= n <= 0x20) || n == 0x85 || n == 0xA0
  }

  predicate IsDigit(c: char) {
    '0' <= c <= '9'
  }

  predicate AllDigits(s: string) {
    forall i :: 0 <= i < |s| ==> IsDigit(s[i])
  }

  function DigitValue(c: char): nat
    requires IsDigit(c)
  {
    c as int - '0' as int
  }

  function DigitChar(d: nat): (c: char)
    requires d < 10
    ensures IsDigit(c) && DigitValue(c) == d
  {
    ('0' as int + d) as char
  }

  /** Python's str.lower() on one Latin-1 character: A-Z and the accented
      capitals U+00C0..U+00DE (except the multiplication sign U+00D7) move
      down by 0x20; everything else is unchanged. */
  function LowerChar(c: char): char {
    var n := c as int;
    if 'A' <= c <= 'Z' || (0xC0 <= n <= 0xDE && n != 0xD7) then (n + 0x20) as char else c
  }

  // ---------------------------------------------------------------------------
  // Whole-string transformations
  // ---------------------------------------------------------------------------

  function Lower(s: string): (r: string)
    ensures |r| == |s|
    ensures forall i :: 0 <= i < |s| ==> r[i] == LowerChar(s[i])
  {
    if s == [] then [] else [LowerChar(s[0])] + Lower(s[1..])
  }

  function TrimStart(s: string): (r: string)
    ensures |r| <= |s| && r == s[|s| - |r|..]
    ensures forall i :: 0 <= i < |s| - |r| ==> IsSpace(s[i])
    ensures r == [] || !IsSpace(r[0])
  {
    if s != [] && IsSpace(s[0]) then TrimStart(s[1..]) else s
  }

  function TrimEnd(s: string): (r: string)
    ensures |r| <= |s| && r == s[..|r|]
    ensures forall i :: |r| <= i < |s| ==> IsSpace(s[i])
    ensures r == [] || !IsSpace(r[|r| - 1])
  {
    if s != [] && IsSpace(s[|s| - 1]) then TrimEnd(s[..|s| - 1]) else s
  }

  /** No whitespace at either end. */
  predicate IsStripped(s: string) {
    s == [] || (!IsSpace(s[0]) && !IsSpace(s[|s| - 1]))
  }

  /** r is the infix of s starting at k, and everything around it is whitespace. */
  predicate SpaceAround(s: string, k: int, r: string) {
    && 0 <= k && k + |r| <= |s| && s[k..k + |r|] == r
    && (forall i :: 0 <= i < k ==> IsSpace(s[i]))
    && (forall i :: k + |r| <= i < |s| ==> IsSpace(s[i]))
  }

  /** Python's str.strip() with no argument: an infix of s that neither
      starts nor ends with whitespace, obtained by removing only whitespace
      on both sides. */
  function Strip(s: string): (r: string)
    ensures IsStripped(r)
    ensures exists k :: SpaceAround(s, k, r)
  {
    var t := TrimStart(s);
    var r := TrimEnd(t);
    TrimmedAround(s, t, r);
    assert SpaceAround(s, |s| - |t|, r);
    r
  }

  /** What the two trims promise, put together: r is s stripped on both sides. */
  lemma TrimmedAround(s: string, t: string, r: string)
    requires |t| <= |s| && t == s[|s| - |t|..] && (t == [] || !IsSpace(t[0]))
    requires forall i :: 0 <= i < |s| - |t| ==> IsSpace(s[i])
    requires |r| <= |t| && r == t[..|r|] && (r == [] || !IsSpace(r[|r| - 1]))
    requires forall i :: |r| <= i < |t| ==> IsSpace(t[i])
    ensures IsStripped(r) && SpaceAround(s, |s| - |t|, r)
  {
    TrimmedInfix(s, t, r);
    TrimmedTail(s, t, r);
    assert r != [] ==> r[0] == t[0];
  }

  lemma TrimmedInfix(s: string, t: string, r: string)
    requires |t| <= |s| && t == s[|s| - |t|..] && |r| <= |t| && r == t[..|r|]
    ensures s[|s| - |t|..|s| - |t| + |r|] == r
  {
  }

  lemma TrimmedTail(s: string, t: string, r: string)
    requires |t| <= |s| && t == s[|s| - |t|..] && |r| <= |t|
    requires forall i :: |r| <= i < |t| ==> IsSpace(t[i])
    ensures forall i :: |s| - |t| + |r| <= i < |s| ==> IsSpace(s[i])
  {
    forall i | |s| - |t| + |r| <= i < |s| ensures IsSpace(s[i]) {
      assert s[i] == t[i - (|s| - |t|)];
    }
  }

  lemma StrippedIsFixpoint(s: string)
    requires IsStripped(s)
    ensures Strip(s) == s
  {
  }

  /** s with every occurrence of a replaced by b: Python's s.replace(a, b)
      for one-character arguments. */
  function ReplaceChar(s: string, a: char, b: char): (r: string)
    ensures |r| == |s|
    ensures forall i :: 0 <= i < |s| ==> r[i] == (if s[i] == a then b else s[i])
  {
    if s == [] then [] else [if s[0] == a then b else s[0]] + ReplaceChar(s[1..], a, b)
  }

  /** s with every occurrence of a removed: Python's s.replace(a, "") for a
      one-character a. */
  function DeleteChar(s: string, a: char): (r: string)
    ensures |r| <= |s|
    ensures a !in r
  {
    if s == [] then []
    else (if s[0] == a then [] else [s[0]]) + DeleteChar(s[1..], a)
  }

  /** Deleting a character keeps only characters of the original string. */
  lemma {:induction false} DeleteCharFrom(s: string, a: char, c: char)
    requires c in DeleteChar(s, a)
    ensures c in s && c != a
  {
    if s != [] && !(s[0] != a && c == s[0]) {
      DeleteCharFrom(s[1..], a, c);
    }
  }

  lemma {:induction false} DeleteCharAppend(s: string, t: string, a: char)
    ensures DeleteChar(s + t, a) == DeleteChar(s, a) + DeleteChar(t, a)
  {
    if s == [] {
      assert s + t == t;
    } else {
      var head := if s[0] == a then [] else [s[0]];
      assert (s + t)[0] == s[0] && (s + t)[1..] == s[1..] + t;
      DeleteCharAppend(s[1..], t, a);
      assert DeleteChar(s + t, a) == head + (DeleteChar(s[1..], a) + DeleteChar(t, a));
      assert DeleteChar(s, a) == head + DeleteChar(s[1..], a);
    }
  }

  /** Deleting a removes every a and keeps the count of every other character. */
  lemma {:induction false} DeleteCharCount(s: string, a: char, c: char)
    ensures multiset(DeleteChar(s, a))[c] == if c == a then 0 else multiset(s)[c]
  {
    if s != [] {
      assert s == [s[0]] + s[1..];
      DeleteCharCount(s[1..], a, c);
    }
  }

  /** Replacing a by a different b moves the count of a onto b. */
  lemma ReplaceCharCount(s: string, a: char, b: char, c: char)
    requires a != b
    ensures multiset(ReplaceChar(s, a, b))[c]
         == if c == a then 0 else if c == b then multiset(s)[a] + multiset(s)[b] else multiset(s)[c]
  {
    if c == a {
      assert a !in ReplaceChar(s, a, b) by {
        var r := ReplaceChar(s, a, b);
        forall i | 0 <= i < |r| ensures r[i] != a {
        }
      }
    } else if c == b {
      ReplacedTargetCount(s, a, b);
    } else {
      ReplacedOtherCount(s, a, b, c);
    }
  }

  lemma {:induction false} ReplacedTargetCount(s: string, a: char, b: char)
    requires a != b
    ensures multiset(ReplaceChar(s, a, b))[b] == multiset(s)[a] + multiset(s)[b]
  {
    if s != [] {
      var head := if s[0] == a then b else s[0];
      assert s == [s[0]] + s[1..];
      assert ReplaceChar(s, a, b) == [head] + ReplaceChar(s[1..], a, b);
      ReplacedTargetCount(s[1..], a, b);
    }
  }

  lemma {:induction false} ReplacedOtherCount(s: string, a: char, b: char, c: char)
    requires c != a && c != b
    ensures multiset(ReplaceChar(s, a, b))[c] == multiset(s)[c]
  {
    if s != [] {
      var head := if s[0] == a then b else s[0];
      assert s == [s[0]] + s[1..];
      assert ReplaceChar(s, a, b) == [head] + ReplaceChar(s[1..], a, b);
      ReplacedOtherCount(s[1..], a, b, c);
    }
  }

  lemma {:induction false} DeleteAbsentChar(s: string, a: char)
    requires a !in s
    ensures DeleteChar(s, a) == s
  {
    if s != [] {
      DeleteAbsentChar(s[1..], a);
    }
  }

  lemma DeleteOnly(x: char)
    ensures DeleteChar([x], x) == []
  {
    assert [x][1..] == [];
  }

  /** A prefix without x passes through unchanged. */
  lemma DeleteAfterPrefix(p: string, s: string, x: char)
    requires x !in p
    ensures DeleteChar(p + s, x) == p + DeleteChar(s, x)
  {
    DeleteCharAppend(p, s, x);
    DeleteAbsentChar(p, x);
  }

  /** A single leading x is removed and nothing else is. */
  lemma DeleteLeading(x: char, s: string)
    requires x !in s
    ensures DeleteChar([x] + s, x) == s
  {
    DeleteAbsentChar(s, x);
    assert ([x] + s)[1..] == s;
  }

  /** Deleting x across one x that separates a from an x-free b. */
  lemma DeleteAcross(a: string, x: char, b: string)
    requires x !in b
    ensures DeleteChar(a + [x] + b, x) == DeleteChar(a, x) + b
  {
    var d := DeleteChar(a, x);
    DeleteCharAppend(a + [x], b, x);
    DeleteCharAppend(a, [x], x);
    DeleteAbsentChar(b, x);
    DeleteOnly(x);
    assert DeleteChar(a + [x], x) == d + [];
    assert d + [] == d;
  }

  /** Replacing the only x, which separates a from b. */
  lemma ReplaceOnly(a: string, x: char, y: char, b: string)
    requires x !in a && x !in b
    ensures ReplaceChar(a + [x] + b, x, y) == a + [y] + b
  {
    var s, t := a + [x] + b, a + [y] + b;
    var r := ReplaceChar(s, x, y);
    forall i | 0 <= i < |s| ensures r[i] == t[i] {
      if i < |a| {
        assert s[i] == a[i] && t[i] == a[i];
      } else if i > |a| {
        assert s[i] == b[i - |a| - 1] && t[i] == b[i - |a| - 1];
      }
    }
  }

  // ---------------------------------------------------------------------------
  // Substrings
  // ---------------------------------------------------------------------------

  predicate StartsWith(s: string, p: string) {
    |p| <= |s| && s[..|p|] == p
  }

  predicate EndsWith(s: string, p: string) {
    |p| <= |s| && s[|s| - |p|..] == p
  }

  /** p occurs in s at position k. */
  predicate OccursAt(s: string, p: string, k: int) {
    0 <= k && k + |p| <= |s| && s[k..k + |p|] == p
  }

  /** Python's `p in s`. */
  function Contains(s: string, p: string): (b: bool)
    ensures b <==> exists k :: OccursAt(s, p, k)
    decreases |s|
  {
    if s == [] then
      assert forall k :: OccursAt(s, p, k) ==> k == 0 && p == [];
      assert p == [] ==> OccursAt(s, p, 0);
      StartsWith(s, p)
    else
      ContainsShift(s, p);
      StartsWith(s, p) || Contains(s[1..], p)
  }

  lemma ContainsShift(s: string, p: string)
    requires s != []
    ensures (exists k :: OccursAt(s, p, k)) <==> (StartsWith(s, p) || exists k :: OccursAt(s[1..], p, k))
  {
    if exists k :: OccursAt(s, p, k) {
      var k :| OccursAt(s, p, k);
      if k > 0 {
        assert s[1..][k - 1..k - 1 + |p|] == p;
        assert OccursAt(s[1..], p, k - 1);
      }
    }
    if exists k :: OccursAt(s[1..], p, k) {
      var k :| OccursAt(s[1..], p, k);
      assert s[k + 1..k + 1 + |p|] == p;
      assert OccursAt(s, p, k + 1);
    }
    if StartsWith(s, p) {
      assert OccursAt(s, p, 0);
    }
  }

  // ---------------------------------------------------------------------------
  // Decimal digits
  // ---------------------------------------------------------------------------

  function Pow10(n: nat): (p: nat)
    ensures p >= 1
  {
    if n == 0 then 1 else 10 * Pow10(n - 1)
  }

  /** The number a string of decimal digits denotes (0 for the empty string). */
  function DigitsValue(s: string): nat
    requires AllDigits(s)
  {
    if s == [] then 0 else DigitsValue(s[..|s| - 1]) * 10 + DigitValue(s[|s| - 1])
  }

  lemma {:induction false} DigitsValueBound(s: string)
    requires AllDigits(s)
    ensures DigitsValue(s) < Pow10(|s|)
  {
    if s != [] {
      DigitsValueBound(s[..|s| - 1]);
    }
  }

  lemma AllDigitsAppend(a: string, b: string)
    requires AllDigits(a) && AllDigits(b)
    ensures AllDigits(a + b)
  {
    var s := a + b;
    forall i | 0 <= i < |s| ensures IsDigit(s[i]) {
      if i < |a| { assert s[i] == a[i]; } else { assert s[i] == b[i - |a|]; }
    }
  }

  /** Appending one more digit in positional notation. */
  lemma ShiftDigit(x: int, p: int, y: int, d: int)
    ensures (x * p + y) * 10 + d == x * (p * 10) + (y * 10 + d)
  {
  }

  lemma {:induction false} DigitsValueAppend(a: string, b: string)
    requires AllDigits(a) && AllDigits(b)
    ensures AllDigits(a + b)
    ensures DigitsValue(a + b) == DigitsValue(a) * Pow10(|b|) + DigitsValue(b)
  {
    AllDigitsAppend(a, b);
    if b == [] {
      assert a + b == a;
    } else {
      var b' := b[..|b| - 1];
      var d := DigitValue(b[|b| - 1]);
      assert (a + b)[..|a + b| - 1] == a + b';
      assert (a + b)[|a + b| - 1] == b[|b| - 1];
      DigitsValueAppend(a, b');
      assert DigitsValue(a + b) == DigitsValue(a + b') * 10 + d;
      assert DigitsValue(b) == DigitsValue(b') * 10 + d;
      ShiftDigit(DigitsValue(a), Pow10(|b'|), DigitsValue(b'), d);
    }
  }

  /** Python's str(n) for a natural number: its decimal digits without
      leading zeros. */
  function NatToDigits(n: nat): (s: string)
    ensures |s| >= 1 && AllDigits(s)
    ensures DigitsValue(s) == n
    ensures s[0] == '0' ==> n == 0
  {
    if n < 10 then [DigitChar(n)]
    else
      var s := NatToDigits(n / 10) + [DigitChar(n % 10)];
      assert s[..|s| - 1] == NatToDigits(n / 10);
      s
  }

  lemma SingleDigitValue(c: char)
    requires IsDigit(c)
    ensures DigitsValue([c]) == DigitValue(c)
  {
    assert [c][..0] == [];
  }

  /** The leading digit weighs 10^(n-1) in an n-digit string. */
  lemma DigitsValueFront(a: string)
    requires a != [] && AllDigits(a)
    ensures DigitsValue(a) == DigitValue(a[0]) * Pow10(|a| - 1) + DigitsValue(a[1..])
  {
    assert a == [a[0]] + a[1..];
    DigitsValueAppend([a[0]], a[1..]);
    SingleDigitValue(a[0]);
  }

  /** A higher leading digit outweighs any tail of the same length. */
  lemma LeadingDigitDominates(x: nat, y: nat, u: nat, v: nat, p: nat)
    requires x < y && u < p && v < p
    ensures x * p + u < y * p + v
  {
    var d := y - x - 1;
    assert y * p == x * p + p + d * p;
  }

  /** Equal-length digit strings compare as strings exactly as their values
      compare as numbers. */
  lemma {:induction false} DigitStringOrder(a: string, b: string)
    requires |a| == |b| && AllDigits(a) && AllDigits(b)
    ensures StrLess(a, b) <==> DigitsValue(a) < DigitsValue(b)
    ensures a == b <==> DigitsValue(a) == DigitsValue(b)
  {
    if a != [] {
      DigitsValueFront(a);
      DigitsValueFront(b);
      DigitsValueBound(a[1..]);
      DigitsValueBound(b[1..]);
      DigitStringOrder(a[1..], b[1..]);
      var p := Pow10(|a| - 1);
      var x, y := DigitValue(a[0]), DigitValue(b[0]);
      if x < y {
        LeadingDigitDominates(x, y, DigitsValue(a[1..]), DigitsValue(b[1..]), p);
      } else if y < x {
        LeadingDigitDominates(y, x, DigitsValue(b[1..]), DigitsValue(a[1..]), p);
      } else {
        assert a == [a[0]] + a[1..] && b == [b[0]] + b[1..];
      }
    }
  }

  // ---------------------------------------------------------------------------
  // Python's int() and pandas' to_numeric
  // ---------------------------------------------------------------------------

  /** The digit part Python's int() accepts after an optional sign: decimal
      digits, possibly separated by single underscores. */
  predicate IsIntBody(b: string) {
    && |b| > 0 && IsDigit(b[0]) && IsDigit(b[|b| - 1])
    && (forall i :: 0 <= i < |b| ==> IsDigit(b[i]) || b[i] == '_')
    && (forall i :: 0 <= i < |b| - 1 ==> b[i] != '_' || b[i + 1] != '_')
  }

  lemma UnderscoresRemoved(b: string)
    requires IsIntBody(b)
    ensures AllDigits(DeleteChar(b, '_'))
  {
    var d := DeleteChar(b, '_');
    forall i | 0 <= i < |d| ensures IsDigit(d[i]) {
      DeleteCharFrom(b, '_', d[i]);
    }
  }

  function Signed(negative: bool, x: real): real {
    if negative then -x else x
  }

  /** int() applied to text that has no surrounding whitespace. */
  function IntLiteral(t: string): Option<int> {
    var negative := t != [] && t[0] == '-';
    var body := if t != [] && (t[0] == '-' || t[0] == '+') then t[1..] else t;
    if IsIntBody(body) then
      UnderscoresRemoved(body);
      var v: int := DigitsValue(DeleteChar(body, '_'));
      Some(if negative then -v else v)
    else
      None
  }

  lemma IntLiteralOfDigits(s: string)
    requires s != [] && AllDigits(s)
    ensures Strip(s) == s
    ensures IntLiteral(s) == Some(DigitsValue(s))
  {
    StrippedIsFixpoint(s);
    assert '_' !in s && s[0] != '-' && s[0] != '+';
    DeleteAbsentChar(s, '_');
    assert IsIntBody(s);
    UnderscoresRemoved(s);
    assert IntLiteral(s) == Some(DigitsValue(DeleteChar(s, '_')));
  }

  /** Python's int(s) in base 10: surrounding whitespace is ignored, one
      optional sign, then digits with single underscores between them.
      Anything else raises, which is None here. */
  function ParsePyInt(s: string): (r: Option<int>)
    ensures s != [] && AllDigits(s) ==> r == Some(DigitsValue(s))
    ensures Strip(s) == [] ==> r == None
  {
    assert s != [] && AllDigits(s) ==> IntLiteral(Strip(s)) == Some(DigitsValue(s)) by {
      if s != [] && AllDigits(s) {
        IntLiteralOfDigits(s);
      }
    }
    IntLiteral(Strip(s))
  }

  /** A one-character string is an int() literal exactly when it is a digit. */
  lemma SingleCharInt(c: char)
    ensures ParsePyInt([c]).Some? <==> IsDigit(c)
    ensures IsDigit(c) ==> ParsePyInt([c]) == Some(DigitValue(c))
  {
    var t := Strip([c]);
    var k :| SpaceAround([c], k, t);
    if IsSpace(c) {
      assert t == [];
    } else {
      assert k == 0 && t == [c];
      if IsDigit(c) {
        SingleDigitValue(c);
      }
    }
  }

  /** The exact value of whole '.' frac. */
  function FixedValue(whole: string, frac: string): real
    requires AllDigits(whole) && AllDigits(frac)
  {
    DigitsValue(whole) as real + DigitsValue(frac) as real / Pow10(|frac|) as real
  }

  /** Digits with at most one '.' and at least one digit, read exactly:
      the unsigned part of the plain decimal grammar. */
  function ParseUnsigned(body: string): (r: Option<real>)
    ensures r.Some? ==> forall i :: 0 <= i < |body| ==> IsDigit(body[i]) || body[i] == '.'
    ensures r.Some? ==> exists i :: 0 <= i < |body| && IsDigit(body[i])
    ensures r.Some? ==> r.value >= 0.0
  {
    match IndexOf(body, '.')
    case None =>
      if body != [] && AllDigits(body) then
        assert IsDigit(body[0]);
        Some(DigitsValue(body) as real)
      else None
    case Some(k) =>
      var whole, frac := body[..k], body[k + 1..];
      if |whole| + |frac| > 0 && AllDigits(whole) && AllDigits(frac) then
        assert forall i :: 0 <= i < |body| ==> IsDigit(body[i]) || body[i] == '.' by {
          forall i | 0 <= i < |body| ensures IsDigit(body[i]) || body[i] == '.' {
            if i < k { assert body[i] == whole[i]; }
            else if i > k { assert body[i] == frac[i - k - 1]; }
          }
        }
        assert IsDigit(body[0]) || IsDigit(body[k + 1]) by {
          if |whole| > 0 { assert body[0] == whole[0]; }
          else { assert body[k + 1] == frac[0]; }
        }
        Some(FixedValue(whole, frac))
      else None
  }

  /** The plain decimal grammar that pandas' to_numeric accepts here: an
      optional sign, then digits with at most one '.', and at least one
      digit. The denoted value is exact. */
  function ParseDecimal(s: string): (r: Option<real>)
    ensures r.Some? ==> forall i :: 0 <= i < |s| ==>
              IsDigit(s[i]) || s[i] == '.' || (i == 0 && (s[i] == '-' || s[i] == '+'))
    ensures r.Some? ==> exists i :: 0 <= i < |s| && IsDigit(s[i])
    ensures s != [] && AllDigits(s) ==> r == Some(DigitsValue(s) as real)
  {
    if s != [] && (s[0] == '-' || s[0] == '+') then
      match ParseUnsigned(s[1..])
      case None => None
      case Some(x) =>
        assert forall i :: 1 <= i < |s| ==> s[i] == s[1..][i - 1];
        Some(Signed(s[0] == '-', x))
    else
      ParseUnsigned(s)
  }

  /** In digits '.' digits, the first '.' is the one after the whole part. */
  lemma {:induction false} PointAfterWhole(w: string, frac: string)
    requires AllDigits(w)
    ensures IndexOf(w + "." + frac, '.') == Some(|w|)
  {
    if w != [] {
      PointAfterWhole(w[1..], frac);
      assert (w + "." + frac)[1..] == w[1..] + "." + frac;
    }
  }

  lemma ParseUnsignedFixedPoint(w: string, frac: string)
    requires w != [] && AllDigits(w) && AllDigits(frac)
    ensures ParseUnsigned(w + "." + frac) == Some(FixedValue(w, frac))
  {
    var body := w + "." + frac;
    PointAfterWhole(w, frac);
    assert body[..|w|] == w;
    assert body[|w| + 1..] == frac;
  }

  lemma ParseDecimalUnsigned(body: string, x: real)
    requires ParseUnsigned(body) == Some(x)
    ensures ParseDecimal(body) == Some(x)
  {
    var i :| 0 <= i < |body| && IsDigit(body[i]);
    assert IsDigit(body[0]) || body[0] == '.';
  }

  lemma ParseDecimalNegated(body: string, x: real)
    requires ParseUnsigned(body) == Some(x)
    ensures ParseDecimal("-" + body) == Some(-x)
  {
    var s := "-" + body;
    assert s[0] == '-';
    assert s[1..] == body;
  }

  /** Parsing whole digits, '.' and a fraction recovers the exact value. */
  lemma ParseFixedPoint(w: string, frac: string)
    requires w != [] && AllDigits(w) && AllDigits(frac)
    ensures ParseDecimal(w + "." + frac) == Some(FixedValue(w, frac))
  {
    ParseUnsignedFixedPoint(w, frac);
    ParseDecimalUnsigned(w + "." + frac, FixedValue(w, frac));
  }

  // ---------------------------------------------------------------------------
  // String order
  // ---------------------------------------------------------------------------

  /** Python's `a < b` on strings: lexicographic by code point, with a proper
      prefix ordered first. */
  predicate StrLess(a: string, b: string) {
    b != [] && (a == [] || a[0] < b[0] || (a[0] == b[0] && StrLess(a[1..], b[1..])))
  }

  predicate StrLessEq(a: string, b: string) {
    a == b || StrLess(a, b)
  }

  lemma {:induction false} StrLessIrreflexive(a: string)
    ensures !StrLess(a, a)
  {
    if a != [] {
      StrLessIrreflexive(a[1..]);
    }
  }

  lemma {:induction false} StrLessTransitive(a: string, b: string, c: string)
    requires StrLess(a, b) && StrLess(b, c)
    ensures StrLess(a, c)
  {
    if a != [] && a[0] == b[0] && b[0] == c[0] {
      StrLessTransitive(a[1..], b[1..], c[1..]);
    }
  }

  lemma {:induction false} StrLessTotal(a: string, b: string)
    ensures a == b || StrLess(a, b) || StrLess(b, a)
  {
    if a != [] && b != [] && a[0] == b[0] {
      StrLessTotal(a[1..], b[1..]);
      if a[1..] == b[1..] {
        assert a == [a[0]] + a[1..] && b == [b[0]] + b[1..];
      }
    }
  }

  /** A common suffix after equal-length strings does not change their order. */
  lemma {:induction false} StrLessCommonSuffix(a: string, b: string, t: string)
    requires |a| == |b|
    ensures StrLess(a + t, b + t) <==> StrLess(a, b)
  {
    if a == [] {
      assert a + t == t && b + t == t;
      StrLessIrreflexive(t);
    } else {
      assert (a + t)[0] == a[0] && (b + t)[0] == b[0];
      assert (a + t)[1..] == a[1..] + t && (b + t)[1..] == b[1..] + t;
      StrLessCommonSuffix(a[1..], b[1..], t);
    }
  }
}

=== FILE: utils.dfy ===
/** api_ans/utils.py: the quarter number read off an archive or file name,
    and the Brazilian currency formatter. */
module Utils {
  import opened Results
  import opened Text

  // ---------------------------------------------------------------------------
  // extract_quarter
  // ---------------------------------------------------------------------------

  /** int(filename[0]): the numeric value of the leading character, which
      fails (IndexError or ValueError in the source) unless the name is
      non-empty and starts with a decimal digit. Any digit 0-9 is accepted. */
  function ExtractQuarter(filename: string): (r: Option<int>)
    ensures r.Some? <==> filename != [] && IsDigit(filename[0])
    ensures r.Some? ==> r.value == DigitValue(filename[0]) && 0 <= r.value <= 9
  {
    if filename == [] then None
    else
      SingleCharInt(filename[0]);
      ParsePyInt([filename[0]])
  }

  // ---------------------------------------------------------------------------
  // format_brl
  // ---------------------------------------------------------------------------

  function Abs(n: int): nat {
    if n < 0 then -n else n
  }

  /** Two decimal digits of n, zero-padded. */
  function TwoDigits(n: nat): (s: string)
    requires n < 100
    ensures |s| == 2 && AllDigits(s) && DigitsValue(s) == n
  {
    var s := [DigitChar(n / 10), DigitChar(n % 10)];
    assert s[..1] == [s[0]];
    SingleDigitValue(s[0]);
    s
  }

  /** ds with sep inserted between every group of three digits, counting
      from the right: the `,` option of Python's format specification. */
  function GroupThousands(ds: string, sep: char): string {
    if |ds| <= 3 then ds
    else GroupThousands(ds[..|ds| - 3], sep) + [sep] + ds[|ds| - 3..]
  }

  predicate DigitsOrSep(s: string, sep: char) {
    forall i :: 0 <= i < |s| ==> s[i] == sep || IsDigit(s[i])
  }

  /** Grouping digits writes only digits and separators. */
  lemma {:induction false} GroupThousandsChars(ds: string, sep: char)
    requires AllDigits(ds)
    ensures DigitsOrSep(GroupThousands(ds, sep), sep)
  {
    if |ds| > 3 {
      var front, last := ds[..|ds| - 3], ds[|ds| - 3..];
      GroupThousandsChars(front, sep);
      var f, g := GroupThousands(front, sep), GroupThousands(ds, sep);
      assert g == f + [sep] + last;
      forall i | 0 <= i < |g| ensures g[i] == sep || IsDigit(g[i]) {
        if i < |f| {
          assert g[i] == f[i];
        } else if i == |f| {
          assert g[i] == sep;
        } else {
          assert g[i] == last[i - |f| - 1] == ds[|ds| - 3 + i - |f| - 1];
          assert IsDigit(ds[|ds| - 3 + i - |f| - 1]);
        }
      }
    }
  }

  /** s reads as 1 to 3 digits followed by any number of sep-and-three-digits
      groups. */
  predicate GroupedBy(s: string, sep: char)
    decreases |s|
  {
    if |s| <= 3 then |s| >= 1 && AllDigits(s)
    else |s| >= 5 && s[|s| - 4] == sep && AllDigits(s[|s| - 3..]) && GroupedBy(s[..|s| - 4], sep)
  }

  /** Grouping puts the separators where the convention puts them. */
  lemma {:induction false} GroupThousandsGrouped(ds: string, sep: char)
    requires ds != [] && AllDigits(ds)
    ensures GroupedBy(GroupThousands(ds, sep), sep)
  {
    if |ds| > 3 {
      var front, last := ds[..|ds| - 3], ds[|ds| - 3..];
      GroupThousandsGrouped(front, sep);
      var g := GroupThousands(front, sep);
      var r := g + [sep] + last;
      assert r[..|r| - 4] == g;
      assert r[|r| - 3..] == last;
    }
  }

  /** Grouping adds only separators: removing them gives back the digits. */
  lemma {:induction false} GroupThousandsUngroup(ds: string, sep: char)
    requires sep !in ds
    ensures DeleteChar(GroupThousands(ds, sep), sep) == ds
  {
    if |ds| <= 3 {
      DeleteAbsentChar(ds, sep);
    } else {
      var front, last := ds[..|ds| - 3], ds[|ds| - 3..];
      assert sep !in front && sep !in last;
      GroupThousandsUngroup(front, sep);
      DeleteAcross(GroupThousands(front, sep), sep, last);
      assert front + last == ds;
    }
  }

  /** Python's f"{x:,.2f}" for x = cents / 100: a '-' for negative values,
      the integer part grouped with ',', then '.' and exactly two digits. */
  function FormatWithCommas(cents: int): string {
    SignText(cents) + GroupThousands(IntegerDigits(cents), ',') + "." + CentDigits(cents)
  }

  /** The three chained replace calls: ',' to a placeholder 'X', '.' to ',',
      then the placeholder to '.'. */
  function PlaceholderSwap(s: string): string {
    ReplaceChar(ReplaceChar(ReplaceChar(s, ',', 'X'), '.', ','), 'X', '.')
  }

  function SwapChar(c: char): char {
    if c == ',' then '.' else if c == '.' then ',' else c
  }

  /** Every ',' becomes '.' and every '.' becomes ',' at the same time. */
  function SwapSeparators(s: string): (r: string)
    ensures |r| == |s|
    ensures forall i :: 0 <= i < |s| ==> r[i] == SwapChar(s[i])
  {
    if s == [] then [] else [SwapChar(s[0])] + SwapSeparators(s[1..])
  }

  /** On text without the placeholder, the three replacements are the
      simultaneous exchange of ',' and '.'. */
  lemma PlaceholderSwapExchanges(s: string)
    requires 'X' !in s
    ensures PlaceholderSwap(s) == SwapSeparators(s)
  {
    var r, t := PlaceholderSwap(s), SwapSeparators(s);
    forall i | 0 <= i < |s| ensures r[i] == t[i] {
      assert s[i] != 'X';
    }
  }

  /** Without the placeholder condition the chain is not an exchange: an 'X'
      already in the text comes out as '.'. */
  lemma PlaceholderCollides()
    ensures PlaceholderSwap("X") == "." && SwapSeparators("X") == "X"
  {
  }

  /** Exchanging the separators twice restores the text. */
  lemma SwapInvolutive(s: string)
    ensures SwapSeparators(SwapSeparators(s)) == s
  {
    var r := SwapSeparators(SwapSeparators(s));
    assert forall i :: 0 <= i < |s| ==> r[i] == s[i];
  }

  lemma SwapAppend(a: string, b: string)
    ensures SwapSeparators(a + b) == SwapSeparators(a) + SwapSeparators(b)
  {
    var l, r := SwapSeparators(a + b), SwapSeparators(a) + SwapSeparators(b);
    forall i | 0 <= i < |a + b| ensures l[i] == r[i] {
      if i < |a| { assert (a + b)[i] == a[i]; } else { assert (a + b)[i] == b[i - |a|]; }
    }
  }

  lemma SwapKeepsOthers(s: string)
    requires ',' !in s && '.' !in s
    ensures SwapSeparators(s) == s
  {
    var r := SwapSeparators(s);
    assert forall i :: 0 <= i < |s| ==> r[i] == s[i];
  }

  /** Exchanging separators turns ','-grouping into '.'-grouping. */
  lemma {:induction false} SwapGrouping(ds: string)
    requires AllDigits(ds)
    ensures SwapSeparators(GroupThousands(ds, ',')) == GroupThousands(ds, '.')
  {
    if |ds| <= 3 {
      SwapKeepsOthers(ds);
    } else {
      var front, last := ds[..|ds| - 3], ds[|ds| - 3..];
      var g := GroupThousands(front, ',');
      assert AllDigits(front) && AllDigits(last);
      SwapGrouping(front);
      SwapAppend(g + [','], last);
      SwapAppend(g, [',']);
      assert SwapSeparators([',']) == ['.'];
      DigitsHaveNo(last, ',');
      DigitsHaveNo(last, '.');
      SwapKeepsOthers(last);
    }
  }

  /** The Brazilian convention written out directly: "R$ ", a '-' for
      negative values, the integer part grouped with '.', then ',' and
      exactly two digits. */
  function BrlText(cents: int): string {
    "R$ " + SignText(cents) + GroupThousands(IntegerDigits(cents), '.') + "," + CentDigits(cents)
  }

  function SignText(cents: int): string {
    if cents < 0 then "-" else ""
  }

  /** The digits of the whole part, as str() writes them. */
  function IntegerDigits(cents: int): string {
    NatToDigits(Abs(cents) / 100)
  }

  function CentDigits(cents: int): string {
    TwoDigits(Abs(cents) % 100)
  }

  /** format_brl over exact cents: a missing or NaN value is "R$ 0,00";
      any other value is written with ',' grouping and '.' decimals and then
      passed through the three replacements. */
  function FormatBrl(value: Option<int>): string {
    match value
    case None => "R$ 0,00"
    case Some(c) => PlaceholderSwap("R$ " + FormatWithCommas(c))
  }

  /** The replacement chain lands exactly on the Brazilian convention: a
      missing value is "R$ 0,00" and any other is its BrlText. */
  lemma FormatBrlCases(value: Option<int>)
    ensures value.None? ==> FormatBrl(value) == "R$ 0,00"
    ensures value.Some? ==> FormatBrl(value) == BrlText(value.value)
  {
    if value.Some? {
      FormatBrlIsBrlText(value.value);
    }
  }

  /** Every formatted amount starts with "R$ " and ends with ',' and two
      digits, after at least one digit of the whole part. */
  lemma FormatBrlShape(value: Option<int>)
    ensures var r := FormatBrl(value);
            StartsWith(r, "R$ ") && |r| >= 7
            && r[|r| - 3] == ',' && IsDigit(r[|r| - 2]) && IsDigit(r[|r| - 1])
  {
    FormatBrlCases(value);
    if value.Some? {
      BrlTextShape(value.value);
    }
  }

  lemma BrlTextShape(c: int)
    ensures var r := BrlText(c);
            StartsWith(r, "R$ ") && |r| >= 7
            && r[|r| - 3] == ',' && IsDigit(r[|r| - 2]) && IsDigit(r[|r| - 1])
  {
    var front := "R$ " + SignText(c) + GroupThousands(IntegerDigits(c), '.');
    var two := CentDigits(c);
    assert BrlText(c) == front + "," + two;
    assert |two| == 2 && AllDigits(two);
    assert |GroupThousands(IntegerDigits(c), '.')| >= 1;
  }

  lemma NoPlaceholderInGrouping(ds: string, sep: char)
    requires AllDigits(ds) && sep != 'X'
    ensures 'X' !in GroupThousands(ds, sep)
  {
    GroupThousandsChars(ds, sep);
  }

  lemma NotInAppend(a: string, b: string, x: char)
    requires x !in a && x !in b
    ensures x !in a + b
  {
  }

  lemma FormatBrlIsBrlText(c: int)
    ensures PlaceholderSwap("R$ " + FormatWithCommas(c)) == BrlText(c)
  {
    var pre, ds, two := "R$ " + SignText(c), IntegerDigits(c), CentDigits(c);
    var g := GroupThousands(ds, ',');
    var us := pre + g + "." + two;
    assert us == "R$ " + FormatWithCommas(c);
    assert 'X' !in pre && ',' !in pre && '.' !in pre by {
      if c < 0 { assert pre == "R$ -"; } else { assert pre == "R$ "; }
    }
    NoPlaceholderInGrouping(ds, ',');
    DigitsHaveNo(two, 'X');
    DigitsHaveNo(two, ',');
    DigitsHaveNo(two, '.');
    NotInAppend(pre, g, 'X');
    NotInAppend(pre + g, ".", 'X');
    NotInAppend(pre + g + ".", two, 'X');
    PlaceholderSwapExchanges(us);
    SwapAppend(pre + g + ".", two);
    SwapAppend(pre + g, ".");
    SwapAppend(pre, g);
    SwapKeepsOthers(pre);
    SwapKeepsOthers(two);
    SwapGrouping(ds);
    assert SwapSeparators(".") == ",";
  }

  /** Deleting x from text around a single x joins the two sides. */
  lemma DeleteAround(a: string, x: char, b: string)
    requires x !in a && x !in b
    ensures DeleteChar(a + [x] + b, x) == a + b
  {
    DeleteAcross(a, x, b);
    DeleteAbsentChar(a, x);
  }

  lemma DigitsHaveNo(s: string, x: char)
    requires AllDigits(s) && !IsDigit(x)
    ensures x !in s
  {
  }

  /** The text after "R$ ": the sign, then the grouped amount. */
  lemma BrlTextAfterPrefix(c: int)
    ensures BrlText(c)[3..] == SignText(c) + (GroupThousands(IntegerDigits(c), '.') + "," + CentDigits(c))
  {
    var sign, rest := SignText(c), GroupThousands(IntegerDigits(c), '.') + "," + CentDigits(c);
    assert BrlText(c) == "R$ " + sign + rest;
    assert ("R$ " + sign + rest)[3..] == sign + rest;
  }

  lemma SignHasNo(c: int, x: char)
    requires x != '-'
    ensures x !in SignText(c)
  {
  }

  /** Dropping the grouping points from the text after "R$ ". */
  lemma DeleteGroupingPoints(c: int)
    ensures DeleteChar(BrlText(c)[3..], '.')
         == SignText(c) + (IntegerDigits(c) + "," + CentDigits(c))
  {
    var ds, two := IntegerDigits(c), CentDigits(c);
    var g := GroupThousands(ds, '.');
    BrlTextAfterPrefix(c);
    SignHasNo(c, '.');
    DeleteAfterPrefix(SignText(c), g + "," + two, '.');
    DigitsHaveNo(ds, '.');
    DigitsHaveNo(two, '.');
    GroupThousandsUngroup(ds, '.');
    UngroupAmount(g, ds, two);
  }

  lemma UngroupAmount(g: string, ds: string, two: string)
    requires DeleteChar(g, '.') == ds && '.' !in two
    ensures DeleteChar(g + "," + two, '.') == ds + "," + two
  {
    DeleteCharAppend(g + ",", two, '.');
    DeleteCharAppend(g, ",", '.');
    DeleteAbsentChar(",", '.');
    DeleteAbsentChar(two, '.');
  }

  /** Then dropping the decimal comma. */
  lemma DeleteDecimalComma(c: int)
    ensures DeleteChar(SignText(c) + (IntegerDigits(c) + "," + CentDigits(c)), ',')
         == SignText(c) + (IntegerDigits(c) + CentDigits(c))
  {
    var ds, two := IntegerDigits(c), CentDigits(c);
    DigitsHaveNo(ds, ',');
    DigitsHaveNo(two, ',');
    DeleteAround(ds, ',', two);
    SignHasNo(c, ',');
    DeleteAfterPrefix(SignText(c), ds + "," + two, ',');
  }

  /** And finally the sign. */
  lemma DeleteSign(c: int, t: string)
    requires AllDigits(t)
    ensures DeleteChar(SignText(c) + t, '-') == t
  {
    DigitsHaveNo(t, '-');
    if c < 0 {
      DeleteLeading('-', t);
    } else {
      DeleteAbsentChar(t, '-');
      assert SignText(c) + t == t;
    }
  }

  /** The digits left once the separators and the sign are removed. */
  function BareDigits(text: string): string {
    DeleteChar(DeleteChar(DeleteChar(text, '.'), ','), '-')
  }

  lemma BrlTextBareDigits(c: int)
    ensures BareDigits(BrlText(c)[3..]) == IntegerDigits(c) + CentDigits(c)
  {
    DeleteGroupingPoints(c);
    DeleteDecimalComma(c);
    AllDigitsAppend(IntegerDigits(c), CentDigits(c));
    DeleteSign(c, IntegerDigits(c) + CentDigits(c));
  }

  /** The integer digits followed by the two cent digits spell the cents value. */
  lemma CentsDigitsValue(c: int)
    ensures AllDigits(IntegerDigits(c) + CentDigits(c))
    ensures DigitsValue(IntegerDigits(c) + CentDigits(c)) == Abs(c)
  {
    var m := Abs(c);
    DigitsValueAppend(IntegerDigits(c), CentDigits(c));
    assert Pow10(2) == 100;
    assert DigitsValue(IntegerDigits(c)) == m / 100;
    assert DigitsValue(CentDigits(c)) == m % 100;
    assert (m / 100) * 100 + m % 100 == m;
  }

  /** Removing "R$ ", the '-' and both separators from a formatted amount
      leaves the decimal digits of the cents value: no digit is lost or
      added, and at least three digits are always written. */
  lemma FormatBrlKeepsDigits(c: int)
    ensures var d := BareDigits(FormatBrl(Some(c))[3..]);
            AllDigits(d) && |d| >= 3 && DigitsValue(d) == Abs(c)
  {
    FormatBrlCases(Some(c));
    BrlTextBareDigits(c);
    CentsDigitsValue(c);
  }

  /** Worked examples of the convention. */
  lemma FormatBrlZero()
    ensures FormatBrl(None) == "R$ 0,00"
  {
  }

  lemma BrlTextNegative()
    ensures BrlText(-150) == "R$ -1,50"
  {
    var ds, two := IntegerDigits(-150), CentDigits(-150);
    assert ds == "1" && two == "50";
    assert GroupThousands(ds, '.') == "1";
  }

  lemma FormatBrlNegative()
    ensures FormatBrl(Some(-150)) == "R$ -1,50"
  {
    FormatBrlCases(Some(-150));
    BrlTextNegative();
  }

  lemma DigitsOf12345()
    ensures NatToDigits(12345) == "12345"
  {
    assert NatToDigits(12) == "12";
    assert NatToDigits(123) == "123";
    assert NatToDigits(1234) == "1234";
  }

  lemma BrlTextGrouped()
    ensures BrlText(1234567) == "R$ 12.345,67"
  {
    DigitsOf12345();
    assert IntegerDigits(1234567) == "12345";
    assert CentDigits(1234567) == "67";
    assert GroupThousands("12345", '.') == "12.345";
  }

  lemma FormatBrlGrouped()
    ensures FormatBrl(Some(1234567)) == "R$ 12.345,67"
  {
    FormatBrlCases(Some(1234567));
    BrlTextGrouped();
  }
}
